=== FILE: README.md ===
# Island explorer, modelled in Dafny

This project models the game logic of the island-explorer web component.
It covers four parts:

- The `Island` class carves an island into a shared land/water grid by a bounded breadth-first flood fill from a seed.
- The `Player` class places the player on an island cell and applies the one-step move rule.
- The `IslandExploration` component, with its DOM code removed, does the following:
  - generates the map;
  - places the player, the boat, the treasures and the enemies;
  - runs the enemy step;
  - checks for the boat, collects treasure and detects capture, in the order `handleKeyPress` uses;
  - decides which glyph each cell of the board shows.
- A small session model covers `endGame`, which is meant to stop both the timer and the key listener.

The grid is `seq<seq<bool>>`, with `true` for `'1'` (land) and `false` for `'0'` (water).
Every operation is a pure function from one state to the next.
The source draws from `Math.random`; here each draw becomes a parameter.
A rejection-sampling loop (`while (!placed)`, or the seed loop in `createIsland`) is modelled by the sample it finally accepts.
That sample is constrained by a predicate stating the loop's exit condition: `SeedsAccepted`, `BoatAccepted`, `TreasuresAccepted` and `EnemiesAccepted`.
The enemy step's index `Math.floor(Math.random() * n)` is `draw % n` for a free `draw: nat`.
`EveryValidMoveReachable` shows that every valid move is still reachable this way.

Files:

- `grids.dfy`: cells, directions, grids, and the sets of land and water cells.
- `seqs.dfy`: `Filter`, `Distinct` and `Elems`, with their lemmas.
- `island.dfy`: the flood fill (`Claim`, `Scan`, `Grow`) and `CreateIsland`.
  - Termination uses the measure `2 * |water cells| + |queue|`.
  - The fill's invariant is proved step by step.
- `island_facts.dfy`: how much land a carve adds, the island size on open water, and the cases from `modules/tests/Island.test.js`.
- `player.dfy`: `Player`, `placeRandomly` and `move`.
- `exploration_state.dfy`: the component's state, items, messages and the queries on them.
- `exploration_map.dfy`: `generateRandomIslandMap` and the component's `createIsland`.
- `exploration_placement.dfy`: `placePlayer`, `placeBoatAndItems`, `placeEnemies` and the start-up sequence.
- `exploration_turns.dfy`: the key press and the enemy tick with their checks.
- `exploration_view.dfy`: the cell priority of `drawGrid`.
- `exploration_session.dfy`: the listener, the timer and the log across several stimuli, with `endGame` both as written and as intended.

## Model

| member | source | states |
|---|---|---|
| `Islands.Claim` | modules/Island.js:28-31 | Claiming an in-bounds water cell adds one cell and one queue entry, and lowers the termination measure by exactly one. |
| `Islands.Scan` | modules/Island.js:24-34 | Trying the neighbours of one cell never raises the measure. It only appends to the cells, and every cell it appends is also queued. |
| `Islands.Grow` | modules/Island.js:21-35 | The outer loop ends only with an empty queue or with at least `maxSize` cells, and it only appends to the cells. |
| `Islands.ScanKeepsInv` | modules/Island.js:24-34 | The fill invariant holds across one scan: every cell in bounds, no duplicates, land equals old land plus the cells, each cell touches an earlier one, and while the island is below its bound the cells already expanded have no water neighbour left. |
| `Islands.GrowKeepsInv` | modules/Island.js:21-35 | The fill invariant holds across the whole loop. When it ends below the bound, no member has an in-bounds water neighbour. |
| `Islands.StartKeepsInv` | modules/Island.js:17-19 | Marking and recording the seed, then queueing it, establishes the fill invariant. |
| `Islands.CreateIsland` | modules/Island.js:4-36 | The seed is recorded first, and there are between 1 and `Cap(maxSize)` cells, each in bounds and without duplicates. Every non-seed cell was water before. The grid keeps its shape, and a cell is land afterwards iff it was land or is a member. Each non-seed cell touches an earlier one. Below the bound, every member is surrounded by land or the edge. |
| `IslandFacts.CarvedLand` | modules/Island.js:18-31 | From a water seed, the land set grows by exactly the island's cells, and the water set shrinks by exactly those cells. |
| `IslandFacts.MarkedCells` | modules/Island.js:18-31 | Marking distinct water cells as land, and nothing else, moves exactly those cells from the water set to the land set, and the counts change by their number. |
| `IslandFacts.ClosedIsEverything` | modules/Island.js:24-34 | On a rectangular grid, a cell set closed under in-bounds neighbours that holds one cell holds every cell. |
| `IslandFacts.IslandWithinMap` | modules/Island.js:28-31 | An island never has more cells than its map. |
| `IslandFacts.IslandBelowBoundFillsMap` | modules/Island.js:21-34 | On an all-water map, an island that stops below its bound has as many cells as the map. |
| `IslandFacts.ClosedCellsCoverMap` | modules/Island.js:24-34 | Distinct cells closed under in-bounds neighbours that hold an in-bounds cell number at least `rows * cols`. |
| `IslandFacts.OpenWaterIslandSize` | modules/Island.js:21-34 | On an all-water map the island has exactly `min(Cap(maxSize), rows * cols)` cells, and that is the number of land cells afterwards. |
| `IslandFacts.SeedOnlyWhenBoundIsOne` | modules/tests/Island.test.js:4-17 | On a 3 x 3 water map with bound 1, seed (0,0) gives exactly `[(0,0)]`, which is land, and one land cell in all. |
| `IslandFacts.FourCellsWhenBoundIsFour` | modules/tests/Island.test.js:19-37 | On a 3 x 3 water map with bound 4, seed (1,1) gives four cells and four land cells. |
| `IslandFacts.EastFirstWhenBoundIsTwo` | modules/tests/Island.test.js:39-57 | With bound 2, seed (1,1) gives `[(1,1), (1,2)]`, since east is tried first, and two land cells. |
| `IslandFacts.CrossWhenBoundIsFive` | modules/Island.js:14-33 | From a seed whose four neighbours are water, with bound 5, the island is the seed and then its east, south, west and north neighbours, in that order. |
| `IslandFacts.NeighbourOrderWhenBoundIsFive` | modules/Island.js:14-16 | On a 3 x 3 water map with bound 5, seed (1,1) gives `[(1,1), (1,2), (2,1), (1,0), (0,1)]`, so the neighbour order is east, south, west, north. |
| `IslandFacts.CornerWhenBoundIsFive` | modules/Island.js:17-33 | From a top-left corner seed with bound 5, the island is the seed, its east and south neighbours, then the east neighbour's own east and south neighbours: the queue is expanded first in, first out. |
| `IslandFacts.BreadthFirstWhenBoundIsFive` | modules/Island.js:17-33 | On a 3 x 3 water map with bound 5, seed (0,0) gives `[(0,0), (0,1), (1,0), (0,2), (1,1)]`, where a last-in-first-out fill would give `[(0,0), (0,1), (1,0), (1,1), (2,0)]`. |
| `IslandFacts.WholeMapWhenBoundIsNine` | modules/tests/Island.test.js:59-77 | With bound 9, seed (0,0) covers all nine cells and every cell is land. |
| `IslandFacts.LandSeedStillRecorded` | modules/tests/Island.test.js:79-90 | A seed that is already land is still recorded and then grows, so the island is `[(0,0), (0,1)]` and not empty. |
| `Players.NewPlayer` | modules/Player.js:4-7 | A new player has no position and no boat. |
| `Players.PlaceRandomly` | modules/Player.js:9-12 | The player ends up on a member of the island's cells, and the boat flag is unchanged. |
| `Players.KeyDirection` | modules/Player.js:17-30 | A key names a direction exactly when it is one of the four arrow keys. `ArrowUp` names up, `ArrowDown` down, `ArrowLeft` left and `ArrowRight` right, and no other key names any of them. |
| `Players.ArrowSteps` | modules/Player.js:17-30 | `ArrowUp` targets row `i - 1`, `ArrowDown` row `i + 1`, `ArrowLeft` column `j - 1` and `ArrowRight` column `j + 1`, with the other coordinate kept. |
| `Players.Move` | modules/Player.js:14-34 | The position changes exactly when the key is an arrow and the target is on the map and either land or entered with the boat. The target's row must be a row of the grid and its column below the first row's width, and the cell must exist. The new position is then the key's target, as `Players.ArrowSteps` spells out per key; it is adjacent, and the boat flag is unchanged. |
| `Players.MoveIsUnitStep` | modules/Player.js:16-30 | A move changes at most one coordinate, by exactly one. |
| `Players.OtherKeysStay` | modules/Player.js:17-30 | A key other than the arrows leaves the player unchanged. |
| `Players.NoBoatStaysOnLand` | modules/Player.js:31-33 | Without the boat, a player on land stays on land. |
| `Players.MoveStaysInBounds` | modules/Player.js:31-33 | A player in bounds stays in bounds. |
| `Players.BoatOpensWater` | modules/Player.js:31-33 | An arrow towards water on the map moves the player iff the player has the boat. |
| `Players.FirstRowWidthBoundsColumns` | modules/Player.js:31 | The column bound is `grid[0].length`. On the map `[[land], [land, land]]`, the player at (1,0) cannot step right, although row 1 has a cell there. |
| `Exploration.MessagesDiffer` | components/island-exploration/IslandExploration.js:270-280 | The boat, win and loss messages have pairwise different texts, so the log tells the events apart. |
| `Exploration.NewGame` | components/island-exploration/IslandExploration.js:7-18 | The constructor starts with an empty map, no islands, items or enemies, and a new player. |
| `Grids.AllWater` | components/island-exploration/IslandExploration.js:49-52 | The initial map is a rectangle of `rows` x `cols` cells, all water. |
| `ExplorationMap.AddIsland` | components/island-exploration/IslandExploration.js:59-74 | Carving from an accepted seed keeps the map's shape and appends one island starting at the seed. The new island misses all earlier land. |
| `ExplorationMap.NewCellsWereWater` | components/island-exploration/IslandExploration.js:62-73 | Every cell of an island grown from a water seed was water before the carve. |
| `ExplorationMap.AddIslandKeepsInv` | components/island-exploration/IslandExploration.js:67-73 | After a carve: every island is well grown, the islands are pairwise disjoint, and the land is exactly the union of the islands. |
| `ExplorationMap.AddIslands` | components/island-exploration/IslandExploration.js:54-56 | One island per seed, in seed order, on a map of unchanged shape. |
| `ExplorationMap.AddIslandsKeepInv` | components/island-exploration/IslandExploration.js:54-56 | Carving island after island keeps the map invariant: well-grown islands, pairwise disjoint, and their union is the land. |
| `ExplorationMap.GenerateRandomIslandMap` | components/island-exploration/IslandExploration.js:48-57 | The map is `rows` x `cols`, with exactly `islandCount` islands started at the accepted seeds. The islands are disjoint and connected, and their union is the land. |
| `ExplorationMap.GenerateMap` | components/island-exploration/IslandExploration.js:48-57 | Generating the map sets only the grid and the islands of the component. |
| `ExplorationMap.SeedsExist` | components/island-exploration/IslandExploration.js:60-65 | When `islandCount * Cap(maxIslandSize) < rows * cols`, the seed loop always has an acceptable seed to find. |
| `ExplorationMap.AcceptedSeeds` | components/island-exploration/IslandExploration.js:60-65 | While more water remains than the islands still to carve can use, a sequence of accepted seeds exists. |
| `ExplorationPlacement.PlacePlayer` | components/island-exploration/IslandExploration.js:76-80 | Only the player changes, it stands on some island cell, and the boat flag is unchanged. |
| `ExplorationPlacement.FindIsland` | components/island-exploration/IslandExploration.js:92-96 | Returns the first island holding the cell, and none exactly when no island holds it. |
| `ExplorationPlacement.PlaceTreasures` | components/island-exploration/IslandExploration.js:117-142 | One treasure per accepted pick is appended. Each lies on an island, off the player's cell, and its position differs from every earlier item's. |
| `ExplorationPlacement.PlaceBoatAndItems` | components/island-exploration/IslandExploration.js:90-143 | Appends the boat on the player's island, off the player's cell, and then five treasures. Item positions are pairwise distinct, and nothing else changes. |
| `ExplorationPlacement.PlaceEnemies` | components/island-exploration/IslandExploration.js:145-162 | Exactly `count` enemies, each on a land cell other than the player's. Nothing else changes. |
| `ExplorationPlacement.IslandCellIsLand` | components/island-exploration/IslandExploration.js:67-73 | On a generated map, every island cell is an in-bounds land cell. |
| `ExplorationPlacement.FreshItemsLayout` | components/island-exploration/IslandExploration.js:90-143 | Starting from no items, the result is the boat first, then five island treasures, all off the player and at distinct positions. |
| `ExplorationPlacement.StartItemsOnLand` | components/island-exploration/IslandExploration.js:90-143 | After placement, the player and every item stand on in-bounds land. |
| `ExplorationPlacement.StartStages` | components/island-exploration/IslandExploration.js:36-40 | Placing the player and the items leaves the generated map and islands untouched. |
| `ExplorationPlacement.Start` | components/island-exploration/IslandExploration.js:36-40 | A started game satisfies the start-up layout. The map has the configured size and keeps its invariant. The player is on land without the boat. There is a boat, then five treasures, all on land, off the player and at distinct positions. Three enemies stand on land off the player. |
| `ExplorationPlacement.LayoutCounts` | components/island-exploration/IslandExploration.js:106-139 | A boat followed only by treasures holds exactly one boat and one treasure per remaining item. |
| `ExplorationPlacement.StartItemCounts` | components/island-exploration/IslandExploration.js:90-143 | A started game holds exactly one boat and five treasures. |
| `ExplorationTurns.FirstOfKind` | components/island-exploration/IslandExploration.js:189 | Finds the first item of a kind, and finds none exactly when no item is of that kind. |
| `ExplorationTurns.CheckForBoat` | components/island-exploration/IslandExploration.js:188-200 | With the boat under the player: the player gets the boat and no boat remains. The items left are exactly what the `filter` keeps, in their original order. Every non-boat item is kept, no item is invented, only the player and the items change, and the boat message is logged. Otherwise nothing changes and nothing is logged. |
| `ExplorationTurns.CollectTreasure` | components/island-exploration/IslandExploration.js:202-213 | No treasure remains on the player's cell, and every other item is kept with none invented. The items shrink iff a treasure was there, and are unchanged otherwise. The survivors are exactly the items the `filter` keeps, in their original order. The win is logged exactly when no treasure is left anywhere. |
| `ExplorationTurns.CollectTreasureKeepsOrder` | components/island-exploration/IslandExploration.js:203-207 | Collecting from a concatenation of items collects from each part and joins the results, so the surviving items keep their order. |
| `ExplorationTurns.TreasureFilterShrinks` | components/island-exploration/IslandExploration.js:203-207 | Removing the treasures on a cell shortens the items exactly when one lies there, and otherwise leaves them as they were. |
| `ExplorationTurns.CollectionKeepsOrder` | components/island-exploration/IslandExploration.js:203-207 | The removal distributes over concatenation and keeps a single item unless it is a treasure on the cell, so the kept items stay in their original order. |
| `ExplorationTurns.CheckForGameOver` | components/island-exploration/IslandExploration.js:215-224 | The loss is logged exactly when an enemy stands on the player's cell, and the state is unchanged. |
| `ExplorationTurns.HandleKeyPress` | components/island-exploration/IslandExploration.js:82-88 | The player ends where `move` puts it. |
| `ExplorationTurns.KeyPressOutcome` | components/island-exploration/IslandExploration.js:82-88 | Messages come in the order boat, win, loss, each at most once. Collecting the boat removes every boat. The win is logged iff no treasure remains, and the loss iff an enemy is on the player's final cell. No treasure is left on the final cell. Grid, enemies, islands and configuration are untouched. |
| `ExplorationTurns.KeyPressTakesBoat` | components/island-exploration/IslandExploration.js:82-88 | The boat check looks at the cell after the move: the boat is collected iff the first boat lies on the cell the player moved to, and otherwise the boat flag is unchanged. |
| `ExplorationTurns.KeyPressKeepsOtherItems` | components/island-exploration/IslandExploration.js:188-213 | A press removes only what lies under the player. Every item survives except the boats, when the boat was taken, and the treasures on the cell the player moved to. No item appears that was not there before. |
| `ExplorationTurns.KeyPressItemsInOrder` | components/island-exploration/IslandExploration.js:188-213 | After a press the items are, in their original order, those the boat `filter` keeps (when the boat was taken) and then the treasure `filter` keeps for the cell the player moved to. |
| `ExplorationTurns.StagesInRankOrder` | components/island-exploration/IslandExploration.js:84-86 | The boat, treasure and capture checks each log at most their own message. Together they log in rank order, and each message appears iff its check fired. |
| `ExplorationTurns.WinRepeatsAfterTheLastTreasure` | components/island-exploration/IslandExploration.js:208-211 | With no treasure left, every key press logs the win again. |
| `ExplorationTurns.WinAndLossTogether` | components/island-exploration/IslandExploration.js:82-88 | Stepping onto the cell with all remaining treasures while an enemy stands there logs the win and then the loss in one press. |
| `ExplorationTurns.WinAndLossOnTwoCells` | components/island-exploration/IslandExploration.js:82-88 | A concrete two-cell game where the right arrow logs `[Won, Lost]`. |
| `ExplorationTurns.ValidMoves` | components/island-exploration/IslandExploration.js:166-177 | The valid moves are exactly the directions towards a cell inside `rows` x `cols` that is land. |
| `ExplorationTurns.MoveEnemy` | components/island-exploration/IslandExploration.js:178-182 | An enemy stays put exactly when no neighbour may be entered. Otherwise it moves to an adjacent land cell inside the board. |
| `ExplorationTurns.EveryValidMoveReachable` | components/island-exploration/IslandExploration.js:178-179 | Every valid move is the outcome of some draw. |
| `ExplorationTurns.MoveEnemies` | components/island-exploration/IslandExploration.js:164-183 | Each enemy independently stays or takes one valid step, the enemy count is unchanged, and nothing but the enemies changes. |
| `ExplorationTurns.EnemyTick` | components/island-exploration/IslandExploration.js:164-186 | Capture is checked after every enemy has moved. The loss is logged exactly when a moved enemy stands on the player's cell. |
| `ExplorationTurns.KeyPressKeepsSound` | components/island-exploration/IslandExploration.js:82-88 | A key press keeps the map size, the player on the map and every enemy on land. |
| `ExplorationTurns.EnemyTickKeepsSound` | components/island-exploration/IslandExploration.js:164-186 | An enemy tick keeps the same facts: enemies that start on land stay on land. |
| `ExplorationView.FirstItemAt` | components/island-exploration/IslandExploration.js:256-258 | Finds the first item on a cell, and finds none exactly when no item lies there. |
| `ExplorationView.DrawGrid` | components/island-exploration/IslandExploration.js:242-266 | The board is `rows` x `cols`, and a cell's background is land exactly when the map cell is land. |
| `ExplorationView.GlyphsDiffer` | components/island-exploration/IslandExploration.js:249-262 | The player, boat, treasure and enemy glyphs are pairwise different where the priority needs it. |
| `ExplorationView.PlayerAlwaysShown` | components/island-exploration/IslandExploration.js:249-250 | The player glyph appears exactly on the player's cell, covering any item or enemy there. |
| `ExplorationView.OccupiedCellsShown` | components/island-exploration/IslandExploration.js:249-262 | A cell shows a glyph iff the player, an item or an enemy is there. Off the player, an item cell shows the first item lying there. |
| `ExplorationView.EnemyShownWhenUncovered` | components/island-exploration/IslandExploration.js:251-262 | The enemy glyph appears exactly where an enemy stands with neither the player nor an item. |
| `ExplorationSession.Begin` | components/island-exploration/IslandExploration.js:43-44 | A started session has the listener attached, the timer running and an empty log. |
| `ExplorationSession.Settle` | components/island-exploration/IslandExploration.js:208-223 | A transition's messages are appended to the log. A win or a loss stops the timer, and in the intended version also the listener. |
| `ExplorationSession.EndingsDiffer` | components/island-exploration/IslandExploration.js:226-229 | The written `endGame` and the intended one differ only in the listener. The written one leaves an attached listener attached, because it removes a new bound copy. The intended one removes it. |
| `ExplorationSession.Press` | components/island-exploration/IslandExploration.js:43 | A key press has no effect once the listener is gone. Otherwise the game becomes the result of `handleKeyPress`, and it logs exactly the messages of `handleKeyPress`. |
| `ExplorationSession.Tick` | components/island-exploration/IslandExploration.js:44 | A timer tick has no effect once the interval is cleared. Otherwise the game becomes the enemy tick's game, with every enemy moved, and the log gains exactly the tick's messages. A tick never moves the player. |
| `ExplorationSession.SameUntilTheEnd` | components/island-exploration/IslandExploration.js:226-229 | Until a win or a loss, the written and the intended sessions behave alike. |
| `ExplorationSession.WonGameKeepsListening` | components/island-exploration/IslandExploration.js:228 | As written, after a winning press the listener is still attached, and the next press logs the win again. |
| `ExplorationSession.CaughtPlayerStillMoves` | components/island-exploration/IslandExploration.js:228 | As written, after a capture the player can still be moved by an arrow key. |
| `ExplorationSession.IntendedEndIsFinal` | components/island-exploration/IslandExploration.js:226-229 | As intended, after a press that wins or loses, no later press or tick changes anything. |
| `ExplorationSession.IntendedCatchIsFinal` | components/island-exploration/IslandExploration.js:226-229 | As intended, after a tick that catches the player, no later press or tick changes anything. |

## Behaviour worth knowing

The model follows the code, which behaves as follows:

- A press that takes the last treasure onto an enemy's cell logs both `Won` and `Lost`, in that order. `handleKeyPress` runs `collectTreasure` and then `checkForGameOver`, and nothing between them stops the second check. `ExplorationTurns.WinAndLossTogether` states this.
- After the game ends, only the enemy timer stops. The key listener stays attached, so later presses still move the player and log again; see the finding below.
- A seed that is already land is still marked and recorded, and the island grows from it. The repository's own test, `modules/tests/Island.test.js` (lines 79-90), expects an empty island here; see the last line of "Left out".

## Left out

- DOM, styling and the web-component wiring are left out: `innerHTML`, `querySelector`, `customElements.define`, and the element side of `drawGrid`, including its missing-element guard. `DrawGrid` models only the cell contents.
- The message log is reduced to the sequence of `Event`s. `Message` gives their exact texts. `components/message-log/MessageLog.js` formats timestamps and updates the DOM, and is not part of this model.
- `components/game-board/GameBoard.js` only wires a `Game` class whose source is not shown, so it is not part of this model.
- `modules/Item.js` is not part of this model. An item is the record `Item(name, emoji, position)` with the two kinds the component creates.
- Timers and listeners are not modelled as such. `ExplorationSession` models them only as two flags that gate the key-press and tick stimuli.
- `Math.random` is replaced by explicit picks and draws. Each rejection loop is modelled by its accepted sample, so a loop that never finds one is not modelled. For example, the boat loop spins forever on a one-cell island, and the seed loop spins forever on a full map. `SeedsExist` gives a sufficient condition for the seed loop.
- `Islands.CreateIsland` requires a rectangular grid and an in-bounds seed. The source reads `grid[0].length` for every row, and it fails on an out-of-range seed row; neither case arises from the component.
- `ExplorationMap.GenerateRandomIslandMap` requires `rows > 0` and `cols > 0`. With `rows = 0` and at least one island, the source's seed loop reads an undefined row and fails. With `cols = 0` the seed test reads a missing entry of an existing empty row, so the loop accepts the seed. The `Island` constructor then writes `'1'` past the end of that row, which yields a ragged map holding a one-cell island. The model's grids are rectangular and do not represent that map.
- `Players.Move` requires a placed player, because the source reads the position before anything else. `ExplorationPlacement.PlacePlayer` requires at least one island with the chosen cell, because the source fails on an empty island list.
- `ExplorationTurns.EnemyMayEnter` tests both the configured `rows` x `cols` and the grid's own bounds. The source tests only the configured size. The two tests agree on every map `generateRandomIslandMap` produces.
- `ExplorationView.DrawGrid` requires a placed player and a map of the configured size. This is also the only state in which the component draws.
- The "invalid starting point" case in `modules/tests/Island.test.js` (lines 79-90) expects an empty island. The constructor marks and records the seed unconditionally, so the model follows the code: `IslandFacts.LandSeedStillRecorded` proves the island is `[(0,0), (0,1)]`. The test's expectation is not met by the code.

## Findings

| source | as written | input that shows it | evidently intended | confidence | as-written member | corrected member |
|---|---|---|---|---|---|---|
| components/island-exploration/IslandExploration.js:228 | `endGame` removes `this.handleKeyPress.bind(this)`, a function object different from the one `start` attached. The key listener therefore stays after a win or a loss, while the enemy timer stops. | Any key press after the last treasure is collected logs "You win!" again. After an enemy catches the player, arrow keys still move the player. | A win or a loss ends the game: no key press or tick changes the state afterwards. | high, not executed | `ExplorationSession.WonGameKeepsListening` | `ExplorationSession.IntendedEndIsFinal` |

=== FILE: exploration_map.dfy ===
/** `generateRandomIslandMap` and the component's `createIsland`: an all-water
    map, then `islandCount` islands, each grown from a seed the resampling loop
    accepted because it was still water. */
module ExplorationMap {
  import opened Grids
  import opened Seqs
  import opened Islands
  import opened IslandFacts
  import opened Exploration

  /** The map and the islands carved into it so far. */
  datatype Archipelago = Archipelago(grid: Grid, islands: seq<Island>)

  /** Each seed, in turn, lies on the map and is still water when it is used:
      the exit condition of the resampling loop in `createIsland`. */
  predicate SeedsAccepted(g: Grid, seeds: seq<Cell>, maxSize: int)
    requires Rect(g)
    decreases |seeds|
  {
    || |seeds| == 0
    || (&& InBounds(g, seeds[0]) && !IsLand(g, seeds[0])
        && SeedsAccepted(CreateIsland(g, seeds[0], maxSize).grid, seeds[1..], maxSize))
  }

  /** All cells of all islands. */
  function CellsOf(islands: seq<Island>): set<Cell>
    decreases |islands|
  {
    if |islands| == 0 then {}
    else CellsOf(islands[..|islands| - 1]) + Elems(islands[|islands| - 1].cells)
  }

  lemma {:induction false} CellsOfMembers(islands: seq<Island>, x: Cell)
    ensures x in CellsOf(islands) <==> exists k :: 0 <= k < |islands| && x in islands[k].cells
    decreases |islands|
  {
    if |islands| > 0 {
      var init := islands[..|islands| - 1];
      CellsOfMembers(init, x);
      if x in CellsOf(init) {
        var k :| 0 <= k < |init| && x in init[k].cells;
        assert islands[k] == init[k];
      }
      if exists k :: 0 <= k < |islands| && x in islands[k].cells {
        var k :| 0 <= k < |islands| && x in islands[k].cells;
        if k < |init| {
          assert init[k] == islands[k];
        }
      }
    }
  }

  /** An island as the constructor guarantees it, on a map of the given shape. */
  ghost predicate WellGrown(g: Grid, isl: Island, maxSize: int) {
    && isl.maxSize == maxSize
    && 1 <= |isl.cells| <= Cap(maxSize)
    && isl.cells[0] == isl.start
    && (forall k :: 0 <= k < |isl.cells| ==> InBounds(g, isl.cells[k]))
    && Distinct(isl.cells)
    && Connected(isl.cells)
  }

  /** No two islands share a cell. */
  ghost predicate PairwiseDisjoint(islands: seq<Island>) {
    forall a, b :: 0 <= a < b < |islands| ==> Elems(islands[a].cells) !! Elems(islands[b].cells)
  }

  /** What the generated map promises: every island well grown, no two islands
      overlapping, and the land of the map exactly the union of the islands. */
  ghost predicate MapInv(a: Archipelago, maxSize: int) {
    && Rect(a.grid)
    && (forall k :: 0 <= k < |a.islands| ==> WellGrown(a.grid, a.islands[k], maxSize))
    && PairwiseDisjoint(a.islands)
    && LandSet(a.grid) == CellsOf(a.islands)
  }

  /** One round of the component's `createIsland`: carve an island from an
      accepted seed and push it onto `islands`. */
  function AddIsland(a: Archipelago, seed: Cell, maxSize: int): (r: Archipelago)
    requires Rect(a.grid) && InBounds(a.grid, seed) && !IsLand(a.grid, seed)
    ensures SameShape(a.grid, r.grid) && Rect(r.grid)
    ensures |r.islands| == |a.islands| + 1 && r.islands[..|a.islands|] == a.islands
    ensures r.islands[|a.islands|].start == seed
    ensures Elems(r.islands[|a.islands|].cells) !! LandSet(a.grid)
  {
    var carved := CreateIsland(a.grid, seed, maxSize);
    NewCellsWereWater(a.grid, seed, maxSize);
    Archipelago(carved.grid, a.islands + [carved.island])
  }

  /** The islands already on the map stay well grown after another carve. */
  lemma OldIslandsStayWellGrown(a: Archipelago, g': Grid, maxSize: int)
    requires MapInv(a, maxSize) && SameShape(a.grid, g')
    ensures forall k :: 0 <= k < |a.islands| ==> WellGrown(g', a.islands[k], maxSize)
  {
    forall k, m | 0 <= k < |a.islands| && 0 <= m < |a.islands[k].cells|
      ensures InBounds(g', a.islands[k].cells[m])
    {
      assert WellGrown(a.grid, a.islands[k], maxSize);
      SameShapeBounds(a.grid, g', a.islands[k].cells[m]);
    }
  }

  /** The new island is well grown. */
  lemma NewIslandWellGrown(g: Grid, seed: Cell, maxSize: int)
    requires Rect(g) && InBounds(g, seed)
    ensures var carved := CreateIsland(g, seed, maxSize);
            WellGrown(carved.grid, carved.island, maxSize)
  {
    var carved := CreateIsland(g, seed, maxSize);
    forall m | 0 <= m < |carved.island.cells| ensures InBounds(carved.grid, carved.island.cells[m]) {
      SameShapeBounds(g, carved.grid, carved.island.cells[m]);
    }
  }

  /** A new island made of water cells misses every island already carved. */
  lemma NewIslandDisjoint(islands: seq<Island>, newIsland: Island, land: set<Cell>)
    requires PairwiseDisjoint(islands)
    requires land == CellsOf(islands) && Elems(newIsland.cells) !! land
    ensures PairwiseDisjoint(islands + [newIsland])
  {
    var all := islands + [newIsland];
    forall p, q | 0 <= p < q < |all| ensures Elems(all[p].cells) !! Elems(all[q].cells) {
      assert all[p] == islands[p];
      if q == |islands| {
        forall x | x in Elems(all[p].cells) ensures x in land {
          CellsOfMembers(islands, x);
        }
      } else {
        assert all[q] == islands[q];
      }
    }
  }

  lemma AppendWellGrown(g: Grid, islands: seq<Island>, isl: Island, maxSize: int)
    requires forall k :: 0 <= k < |islands| ==> WellGrown(g, islands[k], maxSize)
    requires WellGrown(g, isl, maxSize)
    ensures forall k :: 0 <= k < |islands + [isl]| ==> WellGrown(g, (islands + [isl])[k], maxSize)
  {
  }

  lemma AppendCellsOf(islands: seq<Island>, isl: Island)
    ensures CellsOf(islands + [isl]) == CellsOf(islands) + Elems(isl.cells)
  {
    assert (islands + [isl])[..|islands|] == islands;
  }

  lemma AddIslandKeepsInv(a: Archipelago, seed: Cell, maxSize: int)
    requires Rect(a.grid) && InBounds(a.grid, seed) && !IsLand(a.grid, seed)
    requires MapInv(a, maxSize)
    ensures var carved := CreateIsland(a.grid, seed, maxSize);
            && MapInv(Archipelago(carved.grid, a.islands + [carved.island]), maxSize)
            && Elems(carved.island.cells) !! LandSet(a.grid)
  {
    var carved := CreateIsland(a.grid, seed, maxSize);
    var islands := a.islands + [carved.island];
    NewCellsWereWater(a.grid, seed, maxSize);
    assert LandSet(carved.grid) == CellsOf(islands) by {
      CarvedLand(a.grid, seed, maxSize);
      AppendCellsOf(a.islands, carved.island);
    }
    assert forall k :: 0 <= k < |islands| ==> WellGrown(carved.grid, islands[k], maxSize) by {
      OldIslandsStayWellGrown(a, carved.grid, maxSize);
      NewIslandWellGrown(a.grid, seed, maxSize);
      AppendWellGrown(carved.grid, a.islands, carved.island, maxSize);
    }
    NewIslandDisjoint(a.islands, carved.island, LandSet(a.grid));
  }

  /** The cells of an island carved from a water seed were all water. */
  lemma NewCellsWereWater(g: Grid, seed: Cell, maxSize: int)
    requires Rect(g) && InBounds(g, seed) && !IsLand(g, seed)
    ensures Elems(CreateIsland(g, seed, maxSize).island.cells) !! LandSet(g)
  {
    var cells := CreateIsland(g, seed, maxSize).island.cells;
    forall x | x in Elems(cells) ensures x !in LandSet(g) {
      LandSetMembers(g, x);
    }
  }

  /** Islands carved from the remaining seeds, one after another. */
  function AddIslands(a: Archipelago, seeds: seq<Cell>, maxSize: int): (r: Archipelago)
    requires Rect(a.grid) && SeedsAccepted(a.grid, seeds, maxSize)
    ensures SameShape(a.grid, r.grid) && Rect(r.grid)
    ensures |r.islands| == |a.islands| + |seeds| && r.islands[..|a.islands|] == a.islands
    ensures forall k :: 0 <= k < |seeds| ==> r.islands[|a.islands| + k].start == seeds[k]
    decreases |seeds|
  {
    if |seeds| == 0 then a
    else
      var a' := AddIsland(a, seeds[0], maxSize);
      var r := AddIslands(a', seeds[1..], maxSize);
      AddIslandsOrder(a, a', r, seeds);
      r
  }

  /** Carving island after island keeps the map invariant. */
  lemma {:induction false} AddIslandsKeepInv(a: Archipelago, seeds: seq<Cell>, maxSize: int)
    requires Rect(a.grid) && SeedsAccepted(a.grid, seeds, maxSize)
    requires MapInv(a, maxSize)
    ensures MapInv(AddIslands(a, seeds, maxSize), maxSize)
    decreases |seeds|
  {
    if |seeds| > 0 {
      var a' := AddIsland(a, seeds[0], maxSize);
      AddIslandKeepsInv(a, seeds[0], maxSize);
      AddIslandsKeepInv(a', seeds[1..], maxSize);
    }
  }

  lemma AddIslandsOrder(a: Archipelago, a': Archipelago, r: Archipelago, seeds: seq<Cell>)
    requires |seeds| > 0
    requires |a'.islands| == |a.islands| + 1 && a'.islands[..|a.islands|] == a.islands
    requires a'.islands[|a.islands|].start == seeds[0]
    requires |r.islands| == |a'.islands| + |seeds| - 1 && r.islands[..|a'.islands|] == a'.islands
    requires forall k :: 0 <= k < |seeds| - 1 ==> r.islands[|a'.islands| + k].start == seeds[1..][k]
    ensures r.islands[..|a.islands|] == a.islands
    ensures forall k :: 0 <= k < |seeds| ==> r.islands[|a.islands| + k].start == seeds[k]
  {
    assert r.islands[..|a'.islands|][..|a.islands|] == r.islands[..|a.islands|];
    forall k | 0 <= k < |seeds| ensures r.islands[|a.islands| + k].start == seeds[k] {
      if k == 0 {
        assert r.islands[|a.islands|] == r.islands[..|a'.islands|][|a.islands|];
      } else {
        assert r.islands[|a'.islands| + (k - 1)].start == seeds[1..][k - 1];
      }
    }
  }

  /** `generateRandomIslandMap()`: a `rows` x `cols` all-water map, then one
      island per accepted seed. */
  function GenerateRandomIslandMap(config: Config, seeds: seq<Cell>): (r: Archipelago)
    requires config.rows > 0 && config.cols > 0
    requires |seeds| == config.islandCount
    requires SeedsAccepted(AllWater(config.rows, config.cols), seeds, config.maxIslandSize)
    ensures Rect(r.grid) && |r.grid| == config.rows && |r.grid[0]| == config.cols
    ensures |r.islands| == config.islandCount
    ensures forall k :: 0 <= k < |r.islands| ==> r.islands[k].start == seeds[k]
    ensures MapInv(r, config.maxIslandSize)
  {
    var empty := Archipelago(AllWater(config.rows, config.cols), []);
    LandSetEmpty(empty.grid);
    AddIslandsKeepInv(empty, seeds, config.maxIslandSize);
    AddIslands(empty, seeds, config.maxIslandSize)
  }

  /** The component's state after `generateRandomIslandMap()`. */
  function GenerateMap(game: Game, seeds: seq<Cell>): (r: Game)
    requires game.config.rows > 0 && game.config.cols > 0
    requires |seeds| == game.config.islandCount
    requires SeedsAccepted(AllWater(game.config.rows, game.config.cols), seeds, game.config.maxIslandSize)
    ensures Rect(r.grid) && |r.grid| == game.config.rows && |r.grid[0]| == game.config.cols
    ensures |r.islands| == game.config.islandCount
    ensures MapInv(Archipelago(r.grid, r.islands), game.config.maxIslandSize)
    ensures r.config == game.config && r.player == game.player
    ensures r.items == game.items && r.enemies == game.enemies
  {
    var a := GenerateRandomIslandMap(game.config, seeds);
    game.(grid := a.grid, islands := a.islands)
  }

  /** The resampling loops always have a water cell to find when the islands
      cannot fill the map: with `islandCount * Cap(maxIslandSize)` below
      `rows * cols`, seeds the loops accept exist. */
  lemma SeedsExist(config: Config)
    requires config.rows > 0 && config.cols > 0
    requires config.islandCount * Cap(config.maxIslandSize) < config.rows * config.cols
    ensures exists seeds :: |seeds| == config.islandCount
              && SeedsAccepted(AllWater(config.rows, config.cols), seeds, config.maxIslandSize)
  {
    var g := AllWater(config.rows, config.cols);
    assert WaterSet(g) == AllCells(config.rows, config.cols) by {
      forall x ensures x in WaterSet(g) <==> x in AllCells(config.rows, config.cols) {
        WaterSetMembers(g, x);
        AllCellsMembers(g, x);
      }
    }
    AllCellsCard(config.rows, config.cols);
    var seeds := AcceptedSeeds(g, config.islandCount, config.maxIslandSize);
  }

  /** Seeds accepted on `g` for `n` islands, while enough water remains. */
  lemma {:induction false} AcceptedSeeds(g: Grid, n: nat, maxSize: int) returns (seeds: seq<Cell>)
    requires Rect(g)
    requires n * Cap(maxSize) < |WaterSet(g)|
    ensures |seeds| == n && SeedsAccepted(g, seeds, maxSize)
    decreases n
  {
    if n == 0 {
      seeds := [];
    } else {
      var w :| w in WaterSet(g);
      WaterSetMembers(g, w);
      var g' := CreateIsland(g, w, maxSize).grid;
      WaterAfterCarve(g, w, n, maxSize);
      var rest := AcceptedSeeds(g', n - 1, maxSize);
      seeds := [w] + rest;
      assert seeds[0] == w && seeds[1..] == rest;
    }
  }

  /** One carve uses at most `Cap(maxSize)` water cells. */
  lemma WaterAfterCarve(g: Grid, w: Cell, n: nat, maxSize: int)
    requires Rect(g) && InBounds(g, w) && !IsLand(g, w)
    requires n >= 1 && n * Cap(maxSize) < |WaterSet(g)|
    ensures (n - 1) * Cap(maxSize) < |WaterSet(CreateIsland(g, w, maxSize).grid)|
  {
    CarvedLand(g, w, maxSize);
    var c := Cap(maxSize);
    assert (n - 1) * c == n * c - c;
  }
}

=== FILE: exploration_placement.dfy ===
/** `placePlayer`, `placeBoatAndItems` and `placeEnemies`, and the start-up
    sequence of `start()` without its DOM, listener and timer. Each
    rejection-sampling loop is modelled by the sample it finally accepts. */
module ExplorationPlacement {
  import opened Wrappers
  import opened Grids
  import opened Seqs
  import opened Islands
  import opened Players
  import opened Exploration
  import opened ExplorationMap

  /** The cell lies on one of the islands. */
  predicate OnSomeIsland(islands: seq<Island>, c: Cell) {
    exists k :: 0 <= k < |islands| && c in islands[k].cells
  }

  /** `placePlayer()`: island `islandPick`, then its cell `cellPick`, the two
      random indices the source draws. There must be an island to draw from. */
  function PlacePlayer(game: Game, islandPick: nat, cellPick: nat): (r: Game)
    requires islandPick < |game.islands| && cellPick < |game.islands[islandPick].cells|
    ensures r == game.(player := r.player)
    ensures r.player.hasBoat == game.player.hasBoat
    ensures r.player.position.Some? && OnSomeIsland(game.islands, r.player.position.value)
  {
    var r := game.(player := PlaceRandomly(game.player, game.islands[islandPick].cells, cellPick));
    assert r.player.position.value in game.islands[islandPick].cells;
    r
  }

  /** `islands.find(island => island.cells.some(cell => cell is c))`: the index
      of the first island holding `c`. */
  function FindIsland(islands: seq<Island>, c: Cell): (r: Option<nat>)
    ensures r.Some? ==> r.value < |islands| && c in islands[r.value].cells
    ensures r.Some? ==> forall k :: 0 <= k < r.value ==> c !in islands[k].cells
    ensures r.None? <==> !OnSomeIsland(islands, c)
    decreases |islands|
  {
    if |islands| == 0 then None
    else if c in islands[0].cells then Some(0)
    else
      match FindIsland(islands[1..], c)
      case None => None
      case Some(k) => Some(k + 1)
  }

  function BoatItem(c: Cell): Item {
    Item(Boat, BoatEmoji, c)
  }

  function TreasureItem(c: Cell): Item {
    Item(Treasure, TreasureEmoji, c)
  }

  /** The two random indices of one treasure attempt: an island, then a cell of it. */
  datatype TreasurePick = TreasurePick(island: nat, cell: nat)

  predicate ValidPick(islands: seq<Island>, p: TreasurePick) {
    p.island < |islands| && p.cell < |islands[p.island].cells|
  }

  function PickedCell(islands: seq<Island>, p: TreasurePick): Cell
    requires ValidPick(islands, p)
  {
    islands[p.island].cells[p.cell]
  }

  /** Each treasure pick, in turn, is off the player's cell and off every item
      placed before it: the exit condition of the treasure loop. */
  predicate TreasuresAccepted(islands: seq<Island>, pos: Cell, items: seq<Item>, picks: seq<TreasurePick>)
    decreases |picks|
  {
    || |picks| == 0
    || (&& ValidPick(islands, picks[0])
        && PickedCell(islands, picks[0]) != pos
        && !ItemAt(items, PickedCell(islands, picks[0]))
        && TreasuresAccepted(islands, pos, items + [TreasureItem(PickedCell(islands, picks[0]))], picks[1..]))
  }

  /** The treasure loop: push one treasure per accepted pick. */
  function PlaceTreasures(islands: seq<Island>, pos: Cell, items: seq<Item>, picks: seq<TreasurePick>): (r: seq<Item>)
    requires TreasuresAccepted(islands, pos, items, picks)
    ensures |r| == |items| + |picks| && r[..|items|] == items
    ensures forall k :: |items| <= k < |r| ==>
              && r[k] == TreasureItem(r[k].position)
              && r[k].position != pos
              && OnSomeIsland(islands, r[k].position)
    ensures forall j, k :: 0 <= j < k < |r| && |items| <= k ==> r[j].position != r[k].position
    decreases |picks|
  {
    if |picks| == 0 then items
    else
      var c := PickedCell(islands, picks[0]);
      var items' := items + [TreasureItem(c)];
      assert c in islands[picks[0].island].cells;
      var r := PlaceTreasures(islands, pos, items', picks[1..]);
      assert r[..|items'|][..|items|] == r[..|items|];
      assert r[|items|] == TreasureItem(c);
      assert forall j :: 0 <= j < |items| ==> r[j] == items[j];
      r
  }

  /** The index of the player's island, when the player has been placed. */
  function PlayerIsland(game: Game): Option<nat> {
    match game.player.position
    case None => None
    case Some(c) => FindIsland(game.islands, c)
  }

  /** The boat loop's exit condition: a cell of the player's island other than
      the player's own cell. */
  predicate BoatAccepted(game: Game, boatPick: nat) {
    && PlayerIsland(game).Some?
    && boatPick < |game.islands[PlayerIsland(game).value].cells|
    && game.islands[PlayerIsland(game).value].cells[boatPick] != game.player.position.value
  }

  function BoatCell(game: Game, boatPick: nat): Cell
    requires BoatAccepted(game, boatPick)
  {
    game.islands[PlayerIsland(game).value].cells[boatPick]
  }

  /** `placeBoatAndItems()`: push the boat, then `TreasureCount` treasures. */
  function PlaceBoatAndItems(game: Game, boatPick: nat, picks: seq<TreasurePick>): (r: Game)
    requires BoatAccepted(game, boatPick)
    requires |picks| == TreasureCount
    requires TreasuresAccepted(game.islands, game.player.position.value,
                               game.items + [BoatItem(BoatCell(game, boatPick))], picks)
    ensures r == game.(items := r.items)
    ensures |r.items| == |game.items| + 1 + TreasureCount && r.items[..|game.items|] == game.items
    ensures var boat := r.items[|game.items|];
            && boat == BoatItem(boat.position)
            && boat.position != game.player.position.value
            && boat.position in game.islands[PlayerIsland(game).value].cells
    ensures forall k :: |game.items| < k < |r.items| ==>
              && r.items[k] == TreasureItem(r.items[k].position)
              && r.items[k].position != game.player.position.value
              && OnSomeIsland(game.islands, r.items[k].position)
    ensures forall j, k :: 0 <= j < k < |r.items| && |game.items| < k ==>
              r.items[j].position != r.items[k].position
  {
    var withBoat := game.items + [BoatItem(BoatCell(game, boatPick))];
    var items := PlaceTreasures(game.islands, game.player.position.value, withBoat, picks);
    assert items[..|withBoat|][..|game.items|] == items[..|game.items|];
    assert items[|game.items|] == withBoat[|game.items|];
    game.(items := items)
  }

  /** Each enemy sample is a land cell other than the player's: the exit
      condition of the enemy loop (the sampled indices are in range by
      construction). */
  predicate EnemiesAccepted(game: Game, count: nat, picks: seq<Cell>)
    requires game.player.position.Some?
  {
    && |picks| == count
    && forall k :: 0 <= k < |picks| ==>
         InBounds(game.grid, picks[k]) && IsLand(game.grid, picks[k]) && picks[k] != game.player.position.value
  }

  /** `placeEnemies(count)`: replace the enemies by `count` accepted samples. */
  function PlaceEnemies(game: Game, count: nat, picks: seq<Cell>): (r: Game)
    requires game.player.position.Some?
    requires EnemiesAccepted(game, count, picks)
    ensures r == game.(enemies := r.enemies)
    ensures |r.enemies| == count
    ensures forall k :: 0 <= k < count ==>
              && InBounds(game.grid, r.enemies[k]) && IsLand(game.grid, r.enemies[k])
              && r.enemies[k] != game.player.position.value
  {
    game.(enemies := picks)
  }

  /** Every random outcome `start()` consumes. */
  datatype StartChoices = StartChoices(
    seeds: seq<Cell>,
    islandPick: nat,
    cellPick: nat,
    boatPick: nat,
    treasurePicks: seq<TreasurePick>,
    enemyPicks: seq<Cell>)

  predicate MapAccepted(config: Config, ch: StartChoices) {
    && config.rows > 0 && config.cols > 0
    && |ch.seeds| == config.islandCount
    && SeedsAccepted(AllWater(config.rows, config.cols), ch.seeds, config.maxIslandSize)
  }

  function AfterMap(config: Config, ch: StartChoices): Game
    requires MapAccepted(config, ch)
  {
    GenerateMap(NewGame(config), ch.seeds)
  }

  predicate PlayerAccepted(config: Config, ch: StartChoices) {
    && MapAccepted(config, ch)
    && ch.islandPick < |AfterMap(config, ch).islands|
    && ch.cellPick < |AfterMap(config, ch).islands[ch.islandPick].cells|
  }

  function AfterPlayer(config: Config, ch: StartChoices): Game
    requires PlayerAccepted(config, ch)
  {
    PlacePlayer(AfterMap(config, ch), ch.islandPick, ch.cellPick)
  }

  predicate ItemsAccepted(config: Config, ch: StartChoices) {
    && PlayerAccepted(config, ch)
    && var g := AfterPlayer(config, ch);
       && BoatAccepted(g, ch.boatPick)
       && |ch.treasurePicks| == TreasureCount
       && TreasuresAccepted(g.islands, g.player.position.value,
                            g.items + [BoatItem(BoatCell(g, ch.boatPick))], ch.treasurePicks)
  }

  function AfterItems(config: Config, ch: StartChoices): Game
    requires ItemsAccepted(config, ch)
  {
    PlaceBoatAndItems(AfterPlayer(config, ch), ch.boatPick, ch.treasurePicks)
  }

  /** Every loop of `start()` accepted its final sample. */
  predicate StartAccepted(config: Config, ch: StartChoices) {
    && ItemsAccepted(config, ch)
    && EnemiesAccepted(AfterItems(config, ch), EnemyCount, ch.enemyPicks)
  }

  /** What a freshly started game looks like. */
  ghost predicate StartLayout(g: Game) {
    && Placed(g)
    && MapInv(Archipelago(g.grid, g.islands), g.config.maxIslandSize)
    && |g.islands| == g.config.islandCount
    && var pos := g.player.position.value;
       && InBounds(g.grid, pos) && IsLand(g.grid, pos) && !g.player.hasBoat
       && |g.items| == 1 + TreasureCount
       && g.items[0] == BoatItem(g.items[0].position)
       && (forall k :: 1 <= k < |g.items| ==> g.items[k] == TreasureItem(g.items[k].position))
       && (forall k :: 0 <= k < |g.items| ==>
             && g.items[k].position != pos
             && InBounds(g.grid, g.items[k].position) && IsLand(g.grid, g.items[k].position))
       && (forall j, k :: 0 <= j < k < |g.items| ==> g.items[j].position != g.items[k].position)
       && |g.enemies| == EnemyCount
       && (forall k :: 0 <= k < |g.enemies| ==>
             InBounds(g.grid, g.enemies[k]) && IsLand(g.grid, g.enemies[k]) && g.enemies[k] != pos)
  }

  /** Island cells are land on a generated map. */
  lemma IslandCellIsLand(a: Archipelago, maxSize: int, c: Cell)
    requires MapInv(a, maxSize) && OnSomeIsland(a.islands, c)
    ensures InBounds(a.grid, c) && IsLand(a.grid, c)
  {
    CellsOfMembers(a.islands, c);
    LandSetMembers(a.grid, c);
  }

  /** The items of a game that had none before `placeBoatAndItems()`. */
  lemma FreshItemsLayout(g: Game, boatPick: nat, picks: seq<TreasurePick>)
    requires g.items == []
    requires BoatAccepted(g, boatPick)
    requires |picks| == TreasureCount
    requires TreasuresAccepted(g.islands, g.player.position.value,
                               g.items + [BoatItem(BoatCell(g, boatPick))], picks)
    ensures var items := PlaceBoatAndItems(g, boatPick, picks).items;
            var pos := g.player.position.value;
            && |items| == 1 + TreasureCount
            && items[0] == BoatItem(items[0].position)
            && items[0].position in g.islands[PlayerIsland(g).value].cells
            && (forall k :: 1 <= k < |items| ==>
                  items[k] == TreasureItem(items[k].position) && OnSomeIsland(g.islands, items[k].position))
            && (forall k :: 0 <= k < |items| ==> items[k].position != pos)
            && (forall j, k :: 0 <= j < k < |items| ==> items[j].position != items[k].position)
  {
  }

  /** The start-up sequence, stage by stage. */
  lemma StartStages(config: Config, ch: StartChoices)
    requires StartAccepted(config, ch)
    ensures var g1 := AfterMap(config, ch);
            var g3 := AfterItems(config, ch);
            && g3.grid == g1.grid && g3.islands == g1.islands && g3.config == config
            && Placed(g3) && !g3.player.hasBoat
            && MapInv(Archipelago(g3.grid, g3.islands), config.maxIslandSize)
            && |g3.islands| == config.islandCount
  {
  }

  /** `start()`: generate the map, place the player, the boat and the
      treasures, then `EnemyCount` enemies. */
  function Start(config: Config, ch: StartChoices): (r: Game)
    requires StartAccepted(config, ch)
    ensures StartLayout(r)
  {
    var g2 := AfterPlayer(config, ch);
    var g3 := AfterItems(config, ch);
    StartStages(config, ch);
    FreshItemsLayout(g2, ch.boatPick, ch.treasurePicks);
    StartItemsOnLand(config, ch);
    PlaceEnemies(g3, EnemyCount, ch.enemyPicks)
  }

  lemma StartItemsOnLand(config: Config, ch: StartChoices)
    requires ItemsAccepted(config, ch)
    ensures var g := AfterItems(config, ch);
            && InBounds(g.grid, g.player.position.value) && IsLand(g.grid, g.player.position.value)
            && forall k :: 0 <= k < |g.items| ==> InBounds(g.grid, g.items[k].position) && IsLand(g.grid, g.items[k].position)
  {
    var g2 := AfterPlayer(config, ch);
    var g := AfterItems(config, ch);
    var a := Archipelago(g.grid, g.islands);
    assert MapInv(a, config.maxIslandSize);
    FreshItemsLayout(g2, ch.boatPick, ch.treasurePicks);
    IslandCellIsLand(a, config.maxIslandSize, g.player.position.value);
    forall k | 0 <= k < |g.items|
      ensures InBounds(g.grid, g.items[k].position) && IsLand(g.grid, g.items[k].position)
    {
      if k == 0 {
        assert g.items[0].position in g2.islands[PlayerIsland(g2).value].cells;
      }
      IslandCellIsLand(a, config.maxIslandSize, g.items[k].position);
    }
  }

  /** A boat followed only by treasures: one boat, the rest treasures. */
  lemma LayoutCounts(items: seq<Item>)
    requires |items| >= 1 && items[0].name == Boat
    requires forall k :: 1 <= k < |items| ==> items[k].name == Treasure
    ensures |Filter(items, IsBoat)| == 1
    ensures |Filter(items, IsTreasure)| == |items| - 1
  {
    assert items == [items[0]] + items[1..];
    FilterAppend([items[0]], items[1..], IsBoat);
    FilterAppend([items[0]], items[1..], IsTreasure);
    FilterDropsAll(items[1..], IsBoat);
    FilterKeepsAll(items[1..], IsTreasure);
  }

  /** A started game holds exactly one boat and `TreasureCount` treasures. */
  lemma StartItemCounts(g: Game)
    requires StartLayout(g)
    ensures |Filter(g.items, IsBoat)| == 1
    ensures |Filter(g.items, IsTreasure)| == TreasureCount
  {
    LayoutCounts(g.items);
  }
}

=== FILE: exploration_session.dfy ===
/** A running game: the state, whether the enemy timer still fires, whether
    the key listener is still attached, and the message log. `endGame` is
    meant to stop both stimuli; as written it stops only the timer, because
    the listener it removes is a freshly bound copy of `handleKeyPress`, not
    the one `start` attached. Both versions are modelled. */
module ExplorationSession {
  import opened Grids
  import opened Players
  import opened Exploration
  import opened ExplorationTurns

  datatype Session = Session(game: Game, ticking: bool, listening: bool, log: seq<Event>)

  /** The end of `start`: listener attached, timer running, nothing logged. */
  function Begin(game: Game): (s: Session)
    ensures s.game == game && s.ticking && s.listening && s.log == []
  {
    Session(game, true, true, [])
  }

  /** A transition calls `endGame` when it logs the win or the loss. */
  predicate Ends(events: seq<Event>) {
    Won in events || Lost in events
  }

  /** `endGame()` as written: the interval is cleared, the listener stays. */
  function EndAsWritten(s: Session): (r: Session)
    ensures !r.ticking && r.listening == s.listening
    ensures r.game == s.game && r.log == s.log
  {
    s.(ticking := false)
  }

  /** `endGame()` as intended: both the interval and the listener are gone. */
  function EndIntended(s: Session): (r: Session)
    ensures !r.ticking && !r.listening
    ensures r.game == s.game && r.log == s.log
  {
    s.(ticking := false, listening := false)
  }

  /** The two endings differ only in the listener: the written one leaves an
      attached listener attached, the intended one removes it. */
  lemma EndingsDiffer(s: Session)
    ensures EndAsWritten(s).listening == s.listening && !EndIntended(s).listening
    ensures EndAsWritten(s).(listening := false) == EndIntended(s)
  {
  }

  /** Apply a transition's outcome to the session, logging its messages and
      ending the game, the written or the intended way, when it asks to. */
  function Settle(s: Session, o: Outcome, intended: bool): (r: Session)
    ensures r.game == o.game && r.log == s.log + o.events
    ensures r.ticking == (s.ticking && !Ends(o.events))
    ensures r.listening == (s.listening && !(intended && Ends(o.events)))
  {
    var next := s.(game := o.game, log := s.log + o.events);
    if !Ends(o.events) then next
    else if intended then EndIntended(next)
    else EndAsWritten(next)
  }

  /** A key event reaches `handleKeyPress` only while the listener is attached. */
  function Press(s: Session, key: string, intended: bool): (r: Session)
    requires s.game.player.position.Some?
    ensures r.game.player.position.Some?
    ensures !s.listening ==> r == s
    ensures s.listening ==> r.game == HandleKeyPress(s.game, key).game
    ensures s.listening ==> r.log == s.log + HandleKeyPress(s.game, key).events
  {
    if s.listening then Settle(s, HandleKeyPress(s.game, key), intended) else s
  }

  /** A timer firing reaches `moveEnemies` only while the interval runs. */
  function Tick(s: Session, draws: seq<nat>, intended: bool): (r: Session)
    requires s.game.player.position.Some? && |draws| == |s.game.enemies|
    ensures r.game.player == s.game.player
    ensures !s.ticking ==> r == s
    ensures s.ticking ==> r.game == EnemyTick(s.game, draws).game
    ensures s.ticking ==> r.log == s.log + EnemyTick(s.game, draws).events
  {
    if s.ticking then Settle(s, EnemyTick(s.game, draws), intended) else s
  }

  /** Until the game ends, the written and the intended sessions agree. */
  lemma SameUntilTheEnd(s: Session, key: string)
    requires s.game.player.position.Some?
    requires !Ends(HandleKeyPress(s.game, key).events)
    ensures Press(s, key, false) == Press(s, key, true)
  {
  }

  /** As written: once a key press has won the game, the listener is still
      attached, and every further key press logs the win again. */
  lemma WonGameKeepsListening(s: Session, key: string, next: string)
    requires s.game.player.position.Some? && s.listening
    requires Won in HandleKeyPress(s.game, key).events
    ensures var s1 := Press(s, key, false);
            && s1.listening && !s1.ticking
            && Won in Press(s1, next, false).log[|s1.log|..]
  {
    var s1 := Press(s, key, false);
    KeyPressOutcome(s.game, key);
    WinRepeatsAfterTheLastTreasure(s1.game, next);
    var s2 := Press(s1, next, false);
    assert s2.log[|s1.log|..] == HandleKeyPress(s1.game, next).events;
  }

  /** As written: after an enemy catches the player on a key press, the
      player can still be moved by the next arrow key. */
  lemma CaughtPlayerStillMoves(s: Session, key: string, next: string)
    requires s.game.player.position.Some? && s.listening
    requires Lost in HandleKeyPress(s.game, key).events
    requires var g := HandleKeyPress(s.game, key).game;
             next in ArrowKeys && MayEnter(g.grid, Step(g.player.position.value, KeyDirection(next).value), g.player.hasBoat)
    ensures var s1 := Press(s, key, false);
            Press(s1, next, false).game.player.position != s1.game.player.position
  {
    var s1 := Press(s, key, false);
    assert s1.listening;
  }

  /** As intended: once a key press or a timer tick logs the win or the loss,
      no later key press or tick changes anything. */
  lemma IntendedEndIsFinal(s: Session, key: string, next: string, draws: seq<nat>)
    requires s.game.player.position.Some? && s.listening
    requires Ends(HandleKeyPress(s.game, key).events)
    requires |draws| == |s.game.enemies|
    ensures var s1 := Press(s, key, true);
            && !s1.listening && !s1.ticking
            && Press(s1, next, true) == s1
            && Tick(s1, draws, true) == s1
  {
    KeyPressOutcome(s.game, key);
  }

  /** As intended, the same holds after a tick that catches the player. */
  lemma IntendedCatchIsFinal(s: Session, draws: seq<nat>, next: string, later: seq<nat>)
    requires s.game.player.position.Some? && s.ticking
    requires |draws| == |s.game.enemies| && |later| == |s.game.enemies|
    requires Lost in EnemyTick(s.game, draws).events
    ensures var s1 := Tick(s, draws, true);
            && !s1.listening && !s1.ticking
            && Press(s1, next, true) == s1
            && Tick(s1, later, true) == s1
  {
  }
}

=== FILE: exploration_state.dfy ===
/** The state the `IslandExploration` component keeps once its DOM code is set
    aside: the map, the islands, the player, the items and the enemies. */
module Exploration {
  import opened Wrappers
  import opened Grids
  import opened Islands
  import opened Players

  /** The constructor's arguments `(rows, cols, islandCount, maxIslandSize)`. */
  datatype Config = Config(rows: nat, cols: nat, islandCount: nat, maxIslandSize: int)

  /** The constructor's defaults. */
  const DefaultConfig: Config := Config(10, 10, 3, 10)

  /** Treasures placed by `placeBoatAndItems`. */
  const TreasureCount: nat := 5

  /** Enemies placed by `start`. */
  const EnemyCount: nat := 3

  /** The item names `"boat"` and `"treasure"`. */
  datatype ItemKind = Boat | Treasure

  /** An item record `{ name, emoji, position }`. */
  datatype Item = Item(name: ItemKind, emoji: string, position: Cell)

  const BoatEmoji: string := "\U{26F5}"
  const TreasureEmoji: string := "\U{1F48E}"
  const PlayerEmoji: string := "\U{1F60A}"
  const EnemyEmoji: string := "\U{1F9DF}"

  datatype Game = Game(
    config: Config,
    grid: Grid,
    islands: seq<Island>,
    player: Player,
    items: seq<Item>,
    enemies: seq<Cell>)

  /** The freshly constructed component: nothing generated or placed yet. */
  function NewGame(config: Config): (g: Game)
    ensures g.player == NewPlayer()
    ensures g.grid == [] && g.islands == [] && g.items == [] && g.enemies == []
  {
    Game(config, [], [], NewPlayer(), [], [])
  }

  /** The messages the component sends to its log. */
  datatype Event = BoatCollected | Won | Lost

  /** The text the log shows for each message. */
  function Message(e: Event): string {
    match e
    case BoatCollected => "You have collected the boat! Now you can move over water."
    case Won => "You collected all the treasures! You win!"
    case Lost => "Game Over! An enemy caught you."
  }

  /** No two messages have the same text, so the log tells the events apart. */
  lemma MessagesDiffer(a: Event, b: Event)
    ensures Message(a) == Message(b) <==> a == b
  {
    assert |Message(BoatCollected)| == 57 && |Message(Won)| == 41 && |Message(Lost)| == 31;
  }

  /** The state after a transition and the messages it logged, in order. */
  datatype Outcome = Outcome(game: Game, events: seq<Event>)

  predicate IsBoat(it: Item) {
    it.name == Boat
  }

  predicate IsTreasure(it: Item) {
    it.name == Treasure
  }

  /** Some item of the given kind lies on `c`. */
  predicate ItemOfKindAt(items: seq<Item>, kind: ItemKind, c: Cell) {
    exists k :: 0 <= k < |items| && items[k].name == kind && items[k].position == c
  }

  /** Some item, of any kind, lies on `c`. */
  predicate ItemAt(items: seq<Item>, c: Cell) {
    exists k :: 0 <= k < |items| && items[k].position == c
  }

  /** Some enemy stands on `c`. */
  predicate EnemyAt(enemies: seq<Cell>, c: Cell) {
    exists k :: 0 <= k < |enemies| && enemies[k] == c
  }

  /** Some item of the given kind remains. */
  predicate AnyOfKind(items: seq<Item>, kind: ItemKind) {
    exists k :: 0 <= k < |items| && items[k].name == kind
  }

  /** The map has the configured size, and the player has been placed. */
  predicate Placed(g: Game) {
    && Rect(g.grid) && |g.grid| == g.config.rows && |g.grid[0]| == g.config.cols
    && g.player.position.Some?
  }
}

=== FILE: exploration_turns.dfy ===
/** The two stimuli that drive a started game: a key press (`handleKeyPress`)
    and an enemy tick (`moveEnemies`), with the checks they run. */
module ExplorationTurns {
  import opened Wrappers
  import opened Grids
  import opened Seqs
  import opened Players
  import opened Exploration

  /** `items.find(item => item.name === kind)`: the index of the first item
      of that kind. */
  function FirstOfKind(items: seq<Item>, kind: ItemKind): (r: Option<nat>)
    ensures r.Some? ==> r.value < |items| && items[r.value].name == kind
    ensures r.Some? ==> forall k :: 0 <= k < r.value ==> items[k].name != kind
    ensures r.None? <==> !AnyOfKind(items, kind)
    decreases |items|
  {
    if |items| == 0 then None
    else if items[0].name == kind then Some(0)
    else
      match FirstOfKind(items[1..], kind)
      case None => None
      case Some(k) => Some(k + 1)
  }

  /** The pickup test of `checkForBoat`: the first boat lies on the player's cell. */
  predicate BoatUnderPlayer(game: Game)
    requires game.player.position.Some?
  {
    var b := FirstOfKind(game.items, Boat);
    b.Some? && game.items[b.value].position == game.player.position.value
  }

  predicate NotBoat(it: Item) {
    it.name != Boat
  }

  /** `checkForBoat()`: when the boat is under the player, take it and remove
      every boat item from the map. */
  function CheckForBoat(game: Game): (r: Outcome)
    requires game.player.position.Some?
    ensures BoatUnderPlayer(game) ==>
              && r.game == game.(player := r.game.player, items := r.game.items)
              && r.game.player == game.player.(hasBoat := true)
              && r.game.items == Filter(game.items, NotBoat)
              && !AnyOfKind(r.game.items, Boat)
              && (forall k :: 0 <= k < |game.items| && game.items[k].name != Boat ==> game.items[k] in r.game.items)
              && (forall k :: 0 <= k < |r.game.items| ==> r.game.items[k] in game.items)
              && |r.game.items| < |game.items|
              && r.events == [BoatCollected]
    ensures !BoatUnderPlayer(game) ==> r == Outcome(game, [])
  {
    if BoatUnderPlayer(game) then
      FilterShrinks(game.items, NotBoat, FirstOfKind(game.items, Boat).value);
      Outcome(game.(player := game.player.(hasBoat := true), items := Filter(game.items, NotBoat)), [BoatCollected])
    else
      Outcome(game, [])
  }

  /** The items `collectTreasure` keeps: everything but a treasure at `pos`. */
  function KeepUnlessTreasureAt(pos: Cell): Item -> bool {
    (it: Item) => !(it.name == Treasure && it.position == pos)
  }

  /** `collectTreasure()`: remove the treasures on the player's cell; signal
      the win when no treasure is left anywhere. */
  function CollectTreasure(game: Game): (r: Outcome)
    requires game.player.position.Some?
    ensures r.game == game.(items := r.game.items)
    ensures var pos := game.player.position.value;
            && !ItemOfKindAt(r.game.items, Treasure, pos)
            && (forall k :: 0 <= k < |game.items| && !(game.items[k].name == Treasure && game.items[k].position == pos)
                  ==> game.items[k] in r.game.items)
            && (forall k :: 0 <= k < |r.game.items| ==> r.game.items[k] in game.items)
            && (ItemOfKindAt(game.items, Treasure, pos) <==> |r.game.items| < |game.items|)
            && (!ItemOfKindAt(game.items, Treasure, pos) ==> r.game.items == game.items)
    ensures r.game.items == Filter(game.items, KeepUnlessTreasureAt(game.player.position.value))
    ensures r.events == if AnyOfKind(r.game.items, Treasure) then [] else [Won]
  {
    var pos := game.player.position.value;
    var items := Filter(game.items, KeepUnlessTreasureAt(pos));
    TreasureFilterShrinks(game.items, pos);
    Outcome(game.(items := items), if AnyOfKind(items, Treasure) then [] else [Won])
  }

  /** The filter of `collectTreasure` shortens the items exactly when a
      treasure lies on `pos`. */
  lemma TreasureFilterShrinks(items: seq<Item>, pos: Cell)
    ensures ItemOfKindAt(items, Treasure, pos) <==> |Filter(items, KeepUnlessTreasureAt(pos))| < |items|
    ensures !ItemOfKindAt(items, Treasure, pos) ==> Filter(items, KeepUnlessTreasureAt(pos)) == items
  {
    var keep := KeepUnlessTreasureAt(pos);
    if ItemOfKindAt(items, Treasure, pos) {
      var k :| 0 <= k < |items| && items[k].name == Treasure && items[k].position == pos;
      FilterShrinks(items, keep, k);
    } else {
      FilterKeepsAll(items, keep);
    }
  }

  /** The items left by `collectTreasure` keep their order: collecting from a
      concatenation collects from each part, and a single item survives unless
      it is a treasure on the player's cell. */
  lemma CollectionKeepsOrder(a: seq<Item>, b: seq<Item>, it: Item, pos: Cell)
    ensures Filter(a + b, KeepUnlessTreasureAt(pos))
              == Filter(a, KeepUnlessTreasureAt(pos)) + Filter(b, KeepUnlessTreasureAt(pos))
    ensures Filter([it], KeepUnlessTreasureAt(pos))
              == if it.name == Treasure && it.position == pos then [] else [it]
  {
    FilterAppend(a, b, KeepUnlessTreasureAt(pos));
  }

  /** `collectTreasure` keeps the surviving items in their order: collecting
      from a concatenation collects from each part and joins the results. */
  lemma CollectTreasureKeepsOrder(game: Game, a: seq<Item>, b: seq<Item>)
    requires game.player.position.Some? && game.items == a + b
    ensures CollectTreasure(game).game.items
              == CollectTreasure(game.(items := a)).game.items + CollectTreasure(game.(items := b)).game.items
  {
    CollectionKeepsOrder(a, b, Item(Boat, BoatEmoji, game.player.position.value), game.player.position.value);
  }

  /** `checkForGameOver()`: signal the loss when an enemy shares the player's cell. */
  function CheckForGameOver(game: Game): (r: Outcome)
    requires game.player.position.Some?
    ensures r.game == game
    ensures r.events == [Lost] <==> EnemyAt(game.enemies, game.player.position.value)
    ensures r.events == [] <==> !EnemyAt(game.enemies, game.player.position.value)
  {
    Outcome(game, if EnemyAt(game.enemies, game.player.position.value) then [Lost] else [])
  }

  /** `handleKeyPress(event)`: move, then the boat check, then treasure
      collection, then the capture check, logging in that order. */
  function HandleKeyPress(game: Game, key: string): (r: Outcome)
    requires game.player.position.Some?
    ensures r.game.player.position == Move(game.player, key, game.grid).position
    ensures r.game.player.position.Some?
  {
    var moved := game.(player := Move(game.player, key, game.grid));
    var boat := CheckForBoat(moved);
    var treasure := CollectTreasure(boat.game);
    var capture := CheckForGameOver(treasure.game);
    Outcome(capture.game, boat.events + treasure.events + capture.events)
  }

  /** The order in which `handleKeyPress` can log. */
  function Rank(e: Event): nat {
    match e
    case BoatCollected => 0
    case Won => 1
    case Lost => 2
  }

  /** A key press logs at most one message of each kind, boat before win
      before loss; the win is logged exactly when no treasure remains after
      the press, the loss exactly when an enemy stands on the cell the player
      ended on, and the grid, enemies and islands are never touched. */
  lemma KeyPressOutcome(game: Game, key: string)
    requires game.player.position.Some?
    ensures var r := HandleKeyPress(game, key);
            var pos := r.game.player.position.value;
            && (forall a, b :: 0 <= a < b < |r.events| ==> Rank(r.events[a]) < Rank(r.events[b]))
            && (Won in r.events <==> !AnyOfKind(r.game.items, Treasure))
            && (Lost in r.events <==> EnemyAt(r.game.enemies, pos))
            && (BoatCollected in r.events ==> r.game.player.hasBoat && !AnyOfKind(r.game.items, Boat))
            && !ItemOfKindAt(r.game.items, Treasure, pos)
            && r.game.grid == game.grid && r.game.enemies == game.enemies
            && r.game.islands == game.islands && r.game.config == game.config
  {
    var moved := game.(player := Move(game.player, key, game.grid));
    var boat := CheckForBoat(moved);
    var treasure := CollectTreasure(boat.game);
    var capture := CheckForGameOver(treasure.game);
    StagesInRankOrder(boat.events, treasure.events, capture.events);
    if BoatUnderPlayer(moved) {
      assert !AnyOfKind(treasure.game.items, Boat) by {
        forall k | 0 <= k < |treasure.game.items| ensures treasure.game.items[k].name != Boat {
          assert treasure.game.items[k] in boat.game.items;
        }
      }
    }
  }

  /** The boat check runs after the move: the boat is taken exactly when the
      first boat lies on the cell the player moved to, and only then does the
      player gain it. */
  lemma KeyPressTakesBoat(game: Game, key: string)
    requires game.player.position.Some?
    ensures var r := HandleKeyPress(game, key);
            var b := FirstOfKind(game.items, Boat);
            && (BoatCollected in r.events <==>
                  b.Some? && game.items[b.value].position == r.game.player.position.value)
            && (BoatCollected !in r.events ==> r.game.player.hasBoat == game.player.hasBoat)
  {
    KeyPressOutcome(game, key);
  }

  /** A press collects only what lies under the player: every item survives
      except the boats, when the boat was taken, and the treasures on the
      cell the player moved to; and no item appears that was not there. */
  lemma KeyPressKeepsOtherItems(game: Game, key: string)
    requires game.player.position.Some?
    ensures var r := HandleKeyPress(game, key);
            var pos := r.game.player.position.value;
            && (forall k :: 0 <= k < |game.items|
                  && !(BoatCollected in r.events && game.items[k].name == Boat)
                  && !(game.items[k].name == Treasure && game.items[k].position == pos)
                  ==> game.items[k] in r.game.items)
            && (forall k :: 0 <= k < |r.game.items| ==> r.game.items[k] in game.items)
  {
    var moved := game.(player := Move(game.player, key, game.grid));
    var boat := CheckForBoat(moved);
    var treasure := CollectTreasure(boat.game);
    StagesInRankOrder(boat.events, treasure.events, CheckForGameOver(treasure.game).events);
    forall k | 0 <= k < |treasure.game.items| ensures treasure.game.items[k] in game.items {
      assert treasure.game.items[k] in boat.game.items;
    }
  }

  /** The items after a press, in order: the boat filter when the boat was
      taken, then the treasure filter for the cell the player moved to. */
  lemma KeyPressItemsInOrder(game: Game, key: string)
    requires game.player.position.Some?
    ensures var r := HandleKeyPress(game, key);
            var kept := if BoatCollected in r.events then Filter(game.items, NotBoat) else game.items;
            r.game.items == Filter(kept, KeepUnlessTreasureAt(r.game.player.position.value))
  {
    var moved := game.(player := Move(game.player, key, game.grid));
    var boat := CheckForBoat(moved);
    var treasure := CollectTreasure(boat.game);
    StagesInRankOrder(boat.events, treasure.events, CheckForGameOver(treasure.game).events);
  }

  /** The three checks of a key press each log at most their own message, so
      together they log in rank order, each message telling which check fired. */
  lemma StagesInRankOrder(boat: seq<Event>, treasure: seq<Event>, capture: seq<Event>)
    requires boat == [] || boat == [BoatCollected]
    requires treasure == [] || treasure == [Won]
    requires capture == [] || capture == [Lost]
    ensures var es := boat + treasure + capture;
            && (forall a, b :: 0 <= a < b < |es| ==> Rank(es[a]) < Rank(es[b]))
            && (BoatCollected in es <==> boat == [BoatCollected])
            && (Won in es <==> treasure == [Won])
            && (Lost in es <==> capture == [Lost])
  {
  }

  /** Nothing in the code ends the game: with no treasure left, every key
      press logs the win again, and a press can log both the win and the loss. */
  lemma WinRepeatsAfterTheLastTreasure(game: Game, key: string)
    requires game.player.position.Some? && !AnyOfKind(game.items, Treasure)
    ensures Won in HandleKeyPress(game, key).events
  {
    KeyPressOutcome(game, key);
    var r := HandleKeyPress(game, key);
    assert !AnyOfKind(r.game.items, Treasure) by {
      var moved := game.(player := Move(game.player, key, game.grid));
      var boat := CheckForBoat(moved);
      forall k | 0 <= k < |r.game.items| ensures r.game.items[k].name != Treasure {
        assert r.game.items[k] in boat.game.items;
        assert r.game.items[k] in game.items;
      }
    }
  }

  /** Stepping onto the cell that holds every remaining treasure while an
      enemy stands there logs the win and then the loss in the same press. */
  lemma WinAndLossTogether(game: Game, key: string)
    requires game.player.position.Some?
    requires var p := Move(game.player, key, game.grid).position.value;
             && |game.items| > 0
             && (forall k :: 0 <= k < |game.items| ==> game.items[k].name == Treasure && game.items[k].position == p)
             && EnemyAt(game.enemies, p)
    ensures HandleKeyPress(game, key).events == [Won, Lost]
  {
    var moved := game.(player := Move(game.player, key, game.grid));
    var p := moved.player.position.value;
    assert !AnyOfKind(moved.items, Boat);
    var treasure := CollectTreasure(moved);
    assert game.items[0].name == Treasure && game.items[0].position == p;
    assert !AnyOfKind(treasure.game.items, Treasure) by {
      forall k | 0 <= k < |treasure.game.items| ensures treasure.game.items[k].name != Treasure {
        assert treasure.game.items[k] in game.items;
      }
    }
  }

  /** An instance: on a one-row map of two land cells, the player at the
      west end presses the right arrow towards the only treasure, where the
      enemy waits. */
  lemma WinAndLossOnTwoCells()
    ensures var c := Cell(0, 1);
            var game := Game(DefaultConfig, [[true, true]], [], Player(Some(Cell(0, 0)), false),
                             [Item(Treasure, TreasureEmoji, c)], [c]);
            HandleKeyPress(game, "ArrowRight").events == [Won, Lost]
  {
    var c := Cell(0, 1);
    var game := Game(DefaultConfig, [[true, true]], [], Player(Some(Cell(0, 0)), false),
                     [Item(Treasure, TreasureEmoji, c)], [c]);
    assert KeyDirection("ArrowRight") == Some(Right);
    assert MayEnter(game.grid, c, false);
    assert Move(game.player, "ArrowRight", game.grid).position == Some(c);
    assert game.enemies[0] == c;
    WinAndLossTogether(game, "ArrowRight");
  }

  /** The order `moveEnemies` tries: up, down, left, right. */
  const EnemyOrder: seq<Direction> := [Up, Down, Left, Right]

  /** The filter of `moveEnemies`: inside `rows` x `cols`, and land. */
  predicate EnemyMayEnter(game: Game, n: Cell) {
    && 0 <= n.i < game.config.rows && 0 <= n.j < game.config.cols
    && InBounds(game.grid, n) && IsLand(game.grid, n)
  }

  /** `validMoves`: the directions an enemy at `e` may take, in `EnemyOrder`. */
  function ValidMoves(game: Game, e: Cell): (r: seq<Direction>)
    ensures forall k :: 0 <= k < |r| ==> EnemyMayEnter(game, Step(e, r[k]))
    ensures forall d :: EnemyMayEnter(game, Step(e, d)) ==> d in r
  {
    var keep := (d: Direction) => EnemyMayEnter(game, Step(e, d));
    FilterKeepsEveryDirection(keep);
    Filter(EnemyOrder, keep)
  }

  /** Where a direction sits in `EnemyOrder`. */
  function OrderIndex(d: Direction): (k: nat)
    ensures k < |EnemyOrder| && EnemyOrder[k] == d
  {
    match d
    case Up => 0
    case Down => 1
    case Left => 2
    case Right => 3
  }

  /** Filtering `EnemyOrder` keeps every direction the test accepts. */
  lemma FilterKeepsEveryDirection(keep: Direction -> bool)
    ensures forall d :: keep(d) ==> d in Filter(EnemyOrder, keep)
  {
    forall d | keep(d) ensures d in Filter(EnemyOrder, keep) {
      assert EnemyOrder[OrderIndex(d)] == d;
    }
  }

  /** One enemy's step: a valid move chosen by the random draw (the index
      `Math.floor(Math.random() * validMoves.length)` is `draw` reduced modulo
      the number of valid moves), or no step when there is none. */
  function MoveEnemy(game: Game, e: Cell, draw: nat): (r: Cell)
    ensures r == e <==> forall d :: !EnemyMayEnter(game, Step(e, d))
    ensures r != e ==> Adjacent(e, r) && EnemyMayEnter(game, r)
  {
    var valid := ValidMoves(game, e);
    if |valid| > 0 then
      var d := valid[draw % |valid|];
      assert Step(e, d) != e by {
        assert Adjacent(e, Step(e, d));
      }
      Step(e, d)
    else
      e
  }

  /** Every move the filter allows is the outcome of some draw. */
  lemma EveryValidMoveReachable(game: Game, e: Cell, d: Direction)
    requires EnemyMayEnter(game, Step(e, d))
    ensures exists draw: nat :: MoveEnemy(game, e, draw) == Step(e, d)
  {
    var valid := ValidMoves(game, e);
    var idx :| 0 <= idx < |valid| && valid[idx] == d;
    assert idx % |valid| == idx by {
      SmallModulus(idx, |valid|);
    }
    assert MoveEnemy(game, e, idx) == Step(e, d);
  }

  lemma SmallModulus(a: nat, n: nat)
    requires a < n
    ensures a % n == a
  {
  }

  /** `moveEnemies()` without its capture check: each enemy takes its own
      step; enemies read only the grid, so the order they move in does not
      matter. */
  function MoveEnemies(game: Game, draws: seq<nat>): (r: Game)
    requires |draws| == |game.enemies|
    ensures r == game.(enemies := r.enemies)
    ensures |r.enemies| == |game.enemies|
    ensures forall k :: 0 <= k < |r.enemies| ==>
              if forall d :: !EnemyMayEnter(game, Step(game.enemies[k], d))
              then r.enemies[k] == game.enemies[k]
              else Adjacent(game.enemies[k], r.enemies[k]) && EnemyMayEnter(game, r.enemies[k])
  {
    game.(enemies := seq(|game.enemies|, k requires 0 <= k < |game.enemies| => MoveEnemy(game, game.enemies[k], draws[k])))
  }

  /** An enemy tick: every enemy moves, and only then is capture checked. */
  function EnemyTick(game: Game, draws: seq<nat>): (r: Outcome)
    requires game.player.position.Some? && |draws| == |game.enemies|
    ensures r.game == MoveEnemies(game, draws)
    ensures r.events == [Lost] <==> EnemyAt(r.game.enemies, game.player.position.value)
    ensures r.events == [] <==> !EnemyAt(r.game.enemies, game.player.position.value)
  {
    CheckForGameOver(MoveEnemies(game, draws))
  }

  /** What stays true while the game runs: the map has its configured size,
      the player is on it, and every enemy is on a land cell. */
  ghost predicate Sound(game: Game) {
    && Placed(game)
    && InBounds(game.grid, game.player.position.value)
    && (forall k :: 0 <= k < |game.enemies| ==>
          InBounds(game.grid, game.enemies[k]) && IsLand(game.grid, game.enemies[k]))
  }

  lemma KeyPressKeepsSound(game: Game, key: string)
    requires Sound(game)
    ensures Sound(HandleKeyPress(game, key).game)
  {
    KeyPressOutcome(game, key);
    MoveStaysInBounds(game.player, key, game.grid);
  }

  lemma EnemyTickKeepsSound(game: Game, draws: seq<nat>)
    requires Sound(game) && |draws| == |game.enemies|
    ensures Sound(EnemyTick(game, draws).game)
  {
  }
}

=== FILE: exploration_view.dfy ===
/** What `drawGrid` puts in each cell: a land or water background, and at
    most one glyph, chosen with the player over items over enemies. */
module ExplorationView {
  import opened Wrappers
  import opened Grids
  import opened Exploration

  datatype Background = LandCell | WaterCell

  /** One drawn cell: its class, and its text content (none when empty). */
  datatype CellView = CellView(background: Background, glyph: Option<string>)

  /** `items.find(...)` on a cell: the index of the first item lying there. */
  function FirstItemAt(items: seq<Item>, c: Cell): (r: Option<nat>)
    ensures r.Some? ==> r.value < |items| && items[r.value].position == c
    ensures r.Some? ==> forall k :: 0 <= k < r.value ==> items[k].position != c
    ensures r.None? <==> !ItemAt(items, c)
    decreases |items|
  {
    if |items| == 0 then None
    else if items[0].position == c then Some(0)
    else
      match FirstItemAt(items[1..], c)
      case None => None
      case Some(k) => Some(k + 1)
  }

  /** The drawing of cell `(i, j)`. */
  function DrawCell(game: Game, i: int, j: int): (v: CellView)
    requires Placed(game) && 0 <= i < game.config.rows && 0 <= j < game.config.cols
  {
    var c := Cell(i, j);
    var background := if game.grid[i][j] then LandCell else WaterCell;
    if c == game.player.position.value then CellView(background, Some(PlayerEmoji))
    else match FirstItemAt(game.items, c)
      case Some(k) => CellView(background, Some(game.items[k].emoji))
      case None => CellView(background, if EnemyAt(game.enemies, c) then Some(EnemyEmoji) else None)
  }

  /** `drawGrid()`: the `rows` x `cols` board, row by row. */
  function DrawGrid(game: Game): (board: seq<seq<CellView>>)
    requires Placed(game)
    ensures |board| == game.config.rows
    ensures forall i :: 0 <= i < |board| ==> |board[i]| == game.config.cols
    ensures forall i, j :: 0 <= i < |board| && 0 <= j < |board[i]| ==>
              (board[i][j].background == LandCell <==> IsLand(game.grid, Cell(i, j)))
    ensures forall i, j :: 0 <= i < |board| && 0 <= j < |board[i]| ==> board[i][j] == DrawCell(game, i, j)
  {
    seq(game.config.rows, i requires 0 <= i < game.config.rows =>
      seq(game.config.cols, j requires 0 <= j < game.config.cols => DrawCell(game, i, j)))
  }

  /** The glyphs of the game's pieces, none of which is another's. */
  lemma GlyphsDiffer()
    ensures PlayerEmoji != BoatEmoji && PlayerEmoji != TreasureEmoji && PlayerEmoji != EnemyEmoji
    ensures EnemyEmoji != BoatEmoji && EnemyEmoji != TreasureEmoji
  {
    assert PlayerEmoji[0] != BoatEmoji[0] && PlayerEmoji[0] != TreasureEmoji[0] && PlayerEmoji[0] != EnemyEmoji[0];
    assert EnemyEmoji[0] != BoatEmoji[0] && EnemyEmoji[0] != TreasureEmoji[0];
  }

  /** The items carry only the boat and treasure glyphs. */
  predicate ItemGlyphs(items: seq<Item>) {
    forall k :: 0 <= k < |items| ==> items[k].emoji == BoatEmoji || items[k].emoji == TreasureEmoji
  }

  /** The player's cell always shows the player, whatever else is there: an
      enemy that has caught the player is not drawn. */
  lemma PlayerAlwaysShown(game: Game, i: int, j: int)
    requires Placed(game) && 0 <= i < game.config.rows && 0 <= j < game.config.cols
    requires ItemGlyphs(game.items)
    ensures DrawCell(game, i, j).glyph == Some(PlayerEmoji) <==> Cell(i, j) == game.player.position.value
  {
    GlyphsDiffer();
    var c := Cell(i, j);
    if c != game.player.position.value {
      match FirstItemAt(game.items, c)
      case Some(k) =>
        assert game.items[k].emoji == BoatEmoji || game.items[k].emoji == TreasureEmoji;
      case None =>
    }
  }

  /** A cell shows a glyph exactly when the player, an item or an enemy is on
      it; an item's cell shows the first item lying there, unless the player
      stands on it. */
  lemma OccupiedCellsShown(game: Game, i: int, j: int)
    requires Placed(game) && 0 <= i < game.config.rows && 0 <= j < game.config.cols
    ensures var c := Cell(i, j);
            DrawCell(game, i, j).glyph.Some? <==>
              c == game.player.position.value || ItemAt(game.items, c) || EnemyAt(game.enemies, c)
    ensures var c := Cell(i, j);
            forall k :: 0 <= k < |game.items| && game.items[k].position == c && c != game.player.position.value
              && (forall m :: 0 <= m < k ==> game.items[m].position != c)
              ==> DrawCell(game, i, j).glyph == Some(game.items[k].emoji)
  {
    var c := Cell(i, j);
    forall k | 0 <= k < |game.items| && game.items[k].position == c && c != game.player.position.value
               && (forall m :: 0 <= m < k ==> game.items[m].position != c)
      ensures DrawCell(game, i, j).glyph == Some(game.items[k].emoji)
    {
      var f := FirstItemAt(game.items, c);
      assert f.Some? && f.value == k;
    }
  }

  /** The enemy glyph appears exactly on the cells with an enemy and neither
      the player nor an item. */
  lemma EnemyShownWhenUncovered(game: Game, i: int, j: int)
    requires Placed(game) && 0 <= i < game.config.rows && 0 <= j < game.config.cols
    requires ItemGlyphs(game.items)
    ensures var c := Cell(i, j);
            DrawCell(game, i, j).glyph == Some(EnemyEmoji) <==>
              c != game.player.position.value && !ItemAt(game.items, c) && EnemyAt(game.enemies, c)
  {
    GlyphsDiffer();
    var c := Cell(i, j);
    if c != game.player.position.value {
      match FirstItemAt(game.items, c)
      case Some(k) =>
        assert game.items[k].emoji == BoatEmoji || game.items[k].emoji == TreasureEmoji;
      case None =>
    }
  }
}

=== FILE: grids.dfy ===
/** Cells, directions and the land/water grid that the island fill carves and
    that movement reads. */
module Grids {

  /** A grid coordinate `{ i, j }`: row `i`, column `j`. Coordinates are
      unbounded integers so that a step off the edge is representable. */
  datatype Cell = Cell(i: int, j: int)

  /** The four orthogonal unit steps. */
  datatype Direction = Up | Down | Left | Right

  /** A map of rows; `true` is land (`'1'`), `false` is water (`'0'`). */
  type Grid = seq<seq<bool>>

  /** The cell one step from `c` in direction `d`. */
  function Step(c: Cell, d: Direction): (n: Cell)
    ensures Adjacent(c, n)
  {
    match d
    case Up => Cell(c.i - 1, c.j)
    case Down => Cell(c.i + 1, c.j)
    case Left => Cell(c.i, c.j - 1)
    case Right => Cell(c.i, c.j + 1)
  }

  /** Orthogonal neighbours: one coordinate equal, the other off by exactly one. */
  predicate Adjacent(a: Cell, b: Cell) {
    || (a.i == b.i && (a.j == b.j + 1 || b.j == a.j + 1))
    || (a.j == b.j && (a.i == b.i + 1 || b.i == a.i + 1))
  }

  /** A non-empty grid whose rows all have the width of the first row. */
  predicate Rect(g: Grid) {
    |g| > 0 && forall r :: 0 <= r < |g| ==> |g[r]| == |g[0]|
  }

  /** Same number of rows and the same width row by row. */
  predicate SameShape(a: Grid, b: Grid) {
    |a| == |b| && forall r :: 0 <= r < |a| ==> |a[r]| == |b[r]|
  }

  /** `c` names an entry of the grid: a row of it, and a column of that row.
      On a rectangular grid the row's width is `grid[0].length`. */
  predicate InBounds(g: Grid, c: Cell) {
    0 <= c.i < |g| && 0 <= c.j < |g[c.i]|
  }

  predicate IsLand(g: Grid, c: Cell)
    requires InBounds(g, c)
  {
    g[c.i][c.j]
  }

  /** Land, or not a cell of the grid at all. */
  predicate LandOrOff(g: Grid, c: Cell) {
    InBounds(g, c) ==> IsLand(g, c)
  }

  /** Every in-bounds orthogonal neighbour of `c` is land. */
  ghost predicate Surrounded(g: Grid, c: Cell) {
    forall d :: LandOrOff(g, Step(c, d))
  }

  /** The assignment `grid[i][j] = '1'`. */
  function SetLand(g: Grid, c: Cell): (r: Grid)
    requires InBounds(g, c)
    ensures SameShape(g, r)
    ensures Rect(g) ==> Rect(r)
    ensures forall x :: InBounds(g, x) ==> (IsLand(r, x) <==> x == c || IsLand(g, x))
  {
    g[c.i := g[c.i][c.j := true]]
  }

  /** Shapes agree, so bounds agree. */
  lemma SameShapeBounds(a: Grid, b: Grid, c: Cell)
    requires SameShape(a, b)
    ensures InBounds(a, c) <==> InBounds(b, c)
  {
  }

  /** Land only spreads: a cell surrounded by land stays so after a claim. */
  lemma SurroundedPersists(g: Grid, n: Cell, c: Cell)
    requires InBounds(g, n)
    requires Surrounded(g, c)
    ensures Surrounded(SetLand(g, n), c)
  {
    forall d ensures LandOrOff(SetLand(g, n), Step(c, d)) {
      assert LandOrOff(g, Step(c, d));
    }
  }

  /** The `rows` x `cols` all-water map. */
  function AllWater(rows: nat, cols: nat): (g: Grid)
    requires rows > 0
    ensures Rect(g) && |g| == rows && |g[0]| == cols
    ensures forall c :: InBounds(g, c) ==> !IsLand(g, c)
  {
    seq(rows, _ => seq(cols, _ => false))
  }

  /** All land cells of the grid. */
  function LandSet(g: Grid): set<Cell> {
    set r, c | 0 <= r < |g| && 0 <= c < |g[r]| && g[r][c] :: Cell(r, c)
  }

  /** All water cells of the grid. */
  function WaterSet(g: Grid): set<Cell> {
    set r, c | 0 <= r < |g| && 0 <= c < |g[r]| && !g[r][c] :: Cell(r, c)
  }

  lemma LandSetMembers(g: Grid, x: Cell)
    ensures x in LandSet(g) <==> InBounds(g, x) && IsLand(g, x)
  {
    if InBounds(g, x) && IsLand(g, x) {
      assert Cell(x.i, x.j) == x;
    }
  }

  lemma WaterSetMembers(g: Grid, x: Cell)
    ensures x in WaterSet(g) <==> InBounds(g, x) && !IsLand(g, x)
  {
    if InBounds(g, x) && !IsLand(g, x) {
      assert Cell(x.i, x.j) == x;
    }
  }

  /** Claiming a water cell removes exactly that cell from the water. */
  lemma ClaimShrinksWater(g: Grid, n: Cell)
    requires InBounds(g, n) && !IsLand(g, n)
    ensures n in WaterSet(g)
    ensures WaterSet(SetLand(g, n)) == WaterSet(g) - {n}
    ensures |WaterSet(SetLand(g, n))| == |WaterSet(g)| - 1
  {
    var g' := SetLand(g, n);
    WaterSetMembers(g, n);
    forall x ensures x in WaterSet(g') <==> x in WaterSet(g) - {n} {
      WaterSetMembers(g, x);
      WaterSetMembers(g', x);
    }
  }

  /** Every cell of a `rows` x `cols` grid. */
  function AllCells(rows: nat, cols: nat): set<Cell> {
    set r, c | 0 <= r < rows && 0 <= c < cols :: Cell(r, c)
  }

  /** The cells of row `r`, up to width `cols`. */
  function RowCells(r: int, cols: nat): set<Cell> {
    set c | 0 <= c < cols :: Cell(r, c)
  }

  lemma {:induction false} RowCellsCard(r: int, cols: nat)
    ensures |RowCells(r, cols)| == cols
    decreases cols
  {
    if cols > 0 {
      RowCellsCard(r, cols - 1);
      assert RowCells(r, cols) == RowCells(r, cols - 1) + {Cell(r, cols - 1)};
    }
  }

  /** A `rows` x `cols` grid has `rows * cols` cells. */
  lemma {:induction false} AllCellsCard(rows: nat, cols: nat)
    ensures |AllCells(rows, cols)| == rows * cols
    decreases rows
  {
    if rows > 0 {
      var above := AllCells(rows - 1, cols);
      var last := RowCells(rows - 1, cols);
      AllCellsCard(rows - 1, cols);
      RowCellsCard(rows - 1, cols);
      forall x ensures x in AllCells(rows, cols) <==> x in above || x in last {
        if x in AllCells(rows, cols) && x.i < rows - 1 {
          assert x == Cell(x.i, x.j);
        }
      }
      assert AllCells(rows, cols) == above + last;
      assert above !! last by {
        forall x | x in above ensures x !in last {
        }
      }
      MulStep(rows - 1, cols);
    }
  }

  lemma MulStep(n: nat, c: nat)
    ensures (n + 1) * c == n * c + c
  {
  }

  /** On a rectangular grid the in-bounds cells are exactly the rectangle. */
  lemma AllCellsMembers(g: Grid, x: Cell)
    requires Rect(g)
    ensures InBounds(g, x) <==> x in AllCells(|g|, |g[0]|)
  {
    if InBounds(g, x) {
      assert Cell(x.i, x.j) == x;
    }
  }
}

=== FILE: island.dfy ===
/** The `Island` class: a bounded breadth-first flood fill that carves one
    island into a shared land/water grid, starting from a seed cell. */
module Islands {
  import opened Grids
  import opened Seqs

  /** The order in which a cell's neighbours are tried: east, south, west, north. */
  const GrowOrder: seq<Direction> := [Right, Down, Left, Up]

  /** An island as the constructor records it: its cells in discovery order,
      its seed and its size bound. */
  datatype Island = Island(cells: seq<Cell>, start: Cell, maxSize: int)

  /** What the constructor produces: the island and the grid it carved into
      (the source mutates the caller's grid in place). */
  datatype Carved = Carved(island: Island, grid: Grid)

  /** The state of the fill: the grid, the cells claimed so far and the
      expansion queue `cellsToExpand`. */
  datatype Fill = Fill(grid: Grid, cells: seq<Cell>, queue: seq<Cell>)

  /** The largest island the fill can produce: the seed is recorded before the
      size bound is first consulted, so a bound below one still yields the seed. */
  function Cap(maxSize: int): nat {
    if maxSize < 1 then 1 else maxSize
  }

  /** Every claim trades one water cell for one queue entry and every pop
      drops one queue entry, so this decreases with each of them. */
  function Measure(s: Fill): nat {
    2 * |WaterSet(s.grid)| + |s.queue|
  }

  /** The claim test: the neighbour lies on the grid and is still water. */
  predicate Claimable(g: Grid, n: Cell) {
    InBounds(g, n) && !IsLand(g, n)
  }

  /** The cell at position `k` touches some cell recorded before it. */
  ghost predicate TouchesEarlier(cells: seq<Cell>, k: int)
    requires 0 <= k < |cells|
  {
    exists m :: 0 <= m < k && Adjacent(cells[m], cells[k])
  }

  /** Every cell after the seed touches some cell recorded before it. */
  ghost predicate Connected(cells: seq<Cell>) {
    forall k :: 1 <= k < |cells| ==> TouchesEarlier(cells, k)
  }

  /** Mark `n` as land and append it to both the island and the queue. */
  function Claim(s: Fill, n: Cell): (r: Fill)
    requires Claimable(s.grid, n)
    ensures Measure(r) == Measure(s) - 1
    ensures |r.cells| == |s.cells| + 1 && |r.queue| == |s.queue| + 1
  {
    ClaimShrinksWater(s.grid, n);
    Fill(SetLand(s.grid, n), s.cells + [n], s.queue + [n])
  }

  /** The inner `for` loop: try the neighbours of `c` from position `k` of
      `GrowOrder` on, stopping as soon as the island reaches `maxSize`. */
  function Scan(s: Fill, c: Cell, k: nat, maxSize: int): (r: Fill)
    requires k <= |GrowOrder|
    ensures Measure(r) <= Measure(s)
    ensures s.cells <= r.cells
    ensures |r.cells| - |r.queue| == |s.cells| - |s.queue|
    decreases |GrowOrder| - k
  {
    if k == |GrowOrder| then s
    else
      var n := Step(c, GrowOrder[k]);
      if Claimable(s.grid, n) then
        var s' := Claim(s, n);
        if |s'.cells| >= maxSize then s' else Scan(s', c, k + 1, maxSize)
      else
        Scan(s, c, k + 1, maxSize)
  }

  /** The outer `while` loop: pop the front of the queue and scan its
      neighbours, until the queue is empty or the island has `maxSize` cells. */
  function Grow(s: Fill, maxSize: int): (r: Fill)
    ensures |r.queue| == 0 || |r.cells| >= maxSize
    ensures s.cells <= r.cells
    decreases Measure(s)
  {
    if |s.queue| == 0 || |s.cells| >= maxSize then s
    else
      var popped := Fill(s.grid, s.cells, s.queue[1..]);
      Grow(Scan(popped, s.queue[0], 0, maxSize), maxSize)
  }

  /** The queue is the not-yet-expanded tail of the recorded cells. */
  predicate QueueIsSuffix(s: Fill) {
    |s.queue| <= |s.cells| && s.queue == s.cells[|s.cells| - |s.queue|..]
  }

  /** The recorded cells lie on `g0` and all but the seed were water there. */
  ghost predicate FreshCells(g0: Grid, cells: seq<Cell>) {
    && (forall k :: 0 <= k < |cells| ==> InBounds(g0, cells[k]))
    && (forall k :: 1 <= k < |cells| ==> !IsLand(g0, cells[k]))
  }

  /** The land of `g` is the land of `g0` plus the recorded cells. */
  ghost predicate LandIsOldPlus(g0: Grid, g: Grid, cells: seq<Cell>)
    requires SameShape(g0, g)
  {
    forall x :: InBounds(g0, x) ==> (IsLand(g, x) <==> IsLand(g0, x) || x in cells)
  }

  /** What holds of the fill throughout, measured against the grid `g0` the
      constructor was given. */
  ghost predicate FillInv(g0: Grid, s: Fill, maxSize: int) {
    && Rect(g0) && SameShape(g0, s.grid)
    && 1 <= |s.cells| <= Cap(maxSize)
    && QueueIsSuffix(s)
    && FreshCells(g0, s.cells)
    && LandIsOldPlus(g0, s.grid, s.cells)
    && Distinct(s.cells)
    && Connected(s.cells)
  }

  /** The invariant of the outer loop: while below the bound, every cell
      already popped from the queue has only land around it. */
  ghost predicate GrowInv(g0: Grid, s: Fill, maxSize: int) {
    && FillInv(g0, s, maxSize)
    && (|s.cells| < maxSize ==>
          forall m :: 0 <= m < |s.cells| - |s.queue| ==> Surrounded(s.grid, s.cells[m]))
  }

  /** The invariant of the inner loop while it scans the cell `c` that was
      popped last: the neighbours tried so far are land or off the grid. */
  ghost predicate ScanInv(g0: Grid, s: Fill, c: Cell, k: nat, maxSize: int) {
    && FillInv(g0, s, maxSize)
    && k <= |GrowOrder|
    && |s.queue| < |s.cells| && c == s.cells[|s.cells| - |s.queue| - 1]
    && |s.cells| < maxSize
    && (forall m :: 0 <= m < |s.cells| - |s.queue| - 1 ==> Surrounded(s.grid, s.cells[m]))
    && (forall t :: 0 <= t < k ==> LandOrOff(s.grid, Step(c, GrowOrder[t])))
  }

  lemma ClaimKeepsSuffix(s: Fill, n: Cell)
    requires Claimable(s.grid, n) && QueueIsSuffix(s)
    ensures QueueIsSuffix(Claim(s, n))
  {
    var r := Claim(s, n);
    assert r.queue == r.cells[|r.cells| - |r.queue|..];
  }

  /** Appending a neighbour of a recorded cell keeps the cells connected. */
  lemma AppendKeepsConnected(cells: seq<Cell>, p: nat, n: Cell)
    requires Connected(cells)
    requires p < |cells| && Adjacent(cells[p], n)
    ensures Connected(cells + [n])
  {
    var cells' := cells + [n];
    forall k | 1 <= k < |cells'|
      ensures TouchesEarlier(cells', k)
    {
      if k == |cells| {
        assert cells'[p] == cells[p] && cells'[k] == n;
      } else {
        assert TouchesEarlier(cells, k);
        var m :| 0 <= m < k && Adjacent(cells[m], cells[k]);
        assert cells'[m] == cells[m] && cells'[k] == cells[k];
      }
    }
  }

  lemma ClaimKeepsLand(g0: Grid, s: Fill, n: Cell)
    requires SameShape(g0, s.grid) && Claimable(s.grid, n)
    requires LandIsOldPlus(g0, s.grid, s.cells)
    ensures SameShape(g0, Claim(s, n).grid)
    ensures LandIsOldPlus(g0, Claim(s, n).grid, Claim(s, n).cells)
  {
    var r := Claim(s, n);
    forall x | InBounds(g0, x)
      ensures IsLand(r.grid, x) <==> IsLand(g0, x) || x in r.cells
    {
      SameShapeBounds(g0, s.grid, x);
    }
  }

  lemma ClaimKeepsFresh(g0: Grid, s: Fill, n: Cell)
    requires SameShape(g0, s.grid) && Claimable(s.grid, n)
    requires LandIsOldPlus(g0, s.grid, s.cells) && FreshCells(g0, s.cells)
    requires Distinct(s.cells)
    ensures FreshCells(g0, Claim(s, n).cells)
    ensures Distinct(Claim(s, n).cells)
  {
    SameShapeBounds(g0, s.grid, n);
    assert n !in s.cells;
    assert !IsLand(g0, n);
  }

  /** A claim from the cell being scanned keeps the fill invariant. */
  lemma ClaimKeepsFillInv(g0: Grid, s: Fill, c: Cell, n: Cell, maxSize: int)
    requires FillInv(g0, s, maxSize)
    requires |s.queue| < |s.cells| && c == s.cells[|s.cells| - |s.queue| - 1]
    requires |s.cells| < maxSize
    requires Claimable(s.grid, n) && Adjacent(c, n)
    ensures FillInv(g0, Claim(s, n), maxSize)
    ensures Claim(s, n).cells[..|s.cells|] == s.cells
  {
    ClaimKeepsSuffix(s, n);
    AppendKeepsConnected(s.cells, |s.cells| - |s.queue| - 1, n);
    ClaimKeepsLand(g0, s, n);
    ClaimKeepsFresh(g0, s, n);
    assert Claim(s, n).cells[..|s.cells|] == s.cells;
  }

  /** GrowOrder tries every direction. */
  lemma GrowOrderCoversAll(d: Direction)
    ensures exists t :: 0 <= t < |GrowOrder| && GrowOrder[t] == d
  {
    match d
    case Right => assert GrowOrder[0] == d;
    case Down => assert GrowOrder[1] == d;
    case Left => assert GrowOrder[2] == d;
    case Up => assert GrowOrder[3] == d;
  }

  /** Once all four neighbours of `c` were tried, `c` joins the expanded cells. */
  lemma ScanDoneKeepsInv(g0: Grid, s: Fill, c: Cell, maxSize: int)
    requires ScanInv(g0, s, c, |GrowOrder|, maxSize)
    ensures GrowInv(g0, s, maxSize)
  {
    forall d ensures LandOrOff(s.grid, Step(c, d)) {
      GrowOrderCoversAll(d);
    }
    assert Surrounded(s.grid, c);
  }

  /** A neighbour that is off the grid or already land is simply passed over. */
  lemma ScanSkipKeepsInv(g0: Grid, s: Fill, c: Cell, k: nat, maxSize: int)
    requires ScanInv(g0, s, c, k, maxSize) && k < |GrowOrder|
    requires !Claimable(s.grid, Step(c, GrowOrder[k]))
    ensures ScanInv(g0, s, c, k + 1, maxSize)
  {
  }

  /** A claim that leaves the island below its bound lets the scan go on. */
  lemma ScanClaimKeepsInv(g0: Grid, s: Fill, c: Cell, k: nat, maxSize: int)
    requires ScanInv(g0, s, c, k, maxSize) && k < |GrowOrder|
    requires Claimable(s.grid, Step(c, GrowOrder[k]))
    requires |Claim(s, Step(c, GrowOrder[k])).cells| < maxSize
    ensures ScanInv(g0, Claim(s, Step(c, GrowOrder[k])), c, k + 1, maxSize)
  {
    var n := Step(c, GrowOrder[k]);
    var s' := Claim(s, n);
    ClaimKeepsFillInv(g0, s, c, n, maxSize);
    forall m | 0 <= m < |s'.cells| - |s'.queue| - 1
      ensures Surrounded(s'.grid, s'.cells[m])
    {
      SurroundedPersists(s.grid, n, s.cells[m]);
    }
    forall t | 0 <= t < k + 1
      ensures LandOrOff(s'.grid, Step(c, GrowOrder[t]))
    {
      SameShapeBounds(s.grid, s'.grid, Step(c, GrowOrder[t]));
    }
  }

  lemma {:induction false} ScanKeepsInv(g0: Grid, s: Fill, c: Cell, k: nat, maxSize: int)
    requires ScanInv(g0, s, c, k, maxSize)
    ensures GrowInv(g0, Scan(s, c, k, maxSize), maxSize)
    decreases |GrowOrder| - k
  {
    if k == |GrowOrder| {
      ScanDoneKeepsInv(g0, s, c, maxSize);
    } else {
      var n := Step(c, GrowOrder[k]);
      if Claimable(s.grid, n) {
        ClaimKeepsFillInv(g0, s, c, n, maxSize);
        if |Claim(s, n).cells| < maxSize {
          ScanClaimKeepsInv(g0, s, c, k, maxSize);
          ScanKeepsInv(g0, Claim(s, n), c, k + 1, maxSize);
        }
      } else {
        ScanSkipKeepsInv(g0, s, c, k, maxSize);
        ScanKeepsInv(g0, s, c, k + 1, maxSize);
      }
    }
  }

  lemma {:induction false} GrowKeepsInv(g0: Grid, s: Fill, maxSize: int)
    requires GrowInv(g0, s, maxSize)
    ensures GrowInv(g0, Grow(s, maxSize), maxSize)
    decreases Measure(s)
  {
    if |s.queue| == 0 || |s.cells| >= maxSize {
    } else {
      var popped := Fill(s.grid, s.cells, s.queue[1..]);
      assert s.queue[0] == s.cells[|s.cells| - |s.queue|];
      assert popped.queue == popped.cells[|popped.cells| - |popped.queue|..];
      ScanKeepsInv(g0, popped, s.queue[0], 0, maxSize);
      GrowKeepsInv(g0, Scan(popped, s.queue[0], 0, maxSize), maxSize);
    }
  }

  /** The starting state: the seed marked as land and recorded, and queued. */
  lemma StartKeepsInv(g: Grid, seed: Cell, maxSize: int)
    requires Rect(g) && InBounds(g, seed)
    ensures GrowInv(g, Fill(SetLand(g, seed), [seed], [seed]), maxSize)
  {
    var s := Fill(SetLand(g, seed), [seed], [seed]);
    forall x | InBounds(g, x)
      ensures IsLand(s.grid, x) <==> IsLand(g, x) || x in s.cells
    {
    }
  }

  /** The constructor `new Island(startRow, startCol, maxSize, grid)`: mark the
      seed as land unconditionally, record it, then grow breadth-first. */
  function CreateIsland(g: Grid, seed: Cell, maxSize: int): (r: Carved)
    requires Rect(g) && InBounds(g, seed)
    ensures SameShape(g, r.grid) && Rect(r.grid)
    ensures r.island.start == seed && r.island.maxSize == maxSize
    ensures |r.island.cells| >= 1 && r.island.cells[0] == seed
    ensures |r.island.cells| <= Cap(maxSize)
    ensures forall k :: 0 <= k < |r.island.cells| ==> InBounds(g, r.island.cells[k])
    ensures forall k :: 1 <= k < |r.island.cells| ==> !IsLand(g, r.island.cells[k])
    ensures forall x :: InBounds(g, x) ==> (IsLand(r.grid, x) <==> IsLand(g, x) || x in r.island.cells)
    ensures Distinct(r.island.cells)
    ensures Connected(r.island.cells)
    ensures |r.island.cells| < maxSize ==>
              forall k :: 0 <= k < |r.island.cells| ==> Surrounded(r.grid, r.island.cells[k])
  {
    var s0 := Fill(SetLand(g, seed), [seed], [seed]);
    StartKeepsInv(g, seed, maxSize);
    GrowKeepsInv(g, s0, maxSize);
    var s := Grow(s0, maxSize);
    assert s0.cells <= s.cells;
    Carved(Island(s.cells, seed, maxSize), s.grid)
  }
}

=== FILE: island_facts.dfy ===
/** Consequences of the island constructor's contract: how much land it adds,
    how far it spreads on open water, and the cases the repository's Island
    tests exercise on a 3 x 3 map. */
module IslandFacts {
  import opened Grids
  import opened Seqs
  import opened Islands

  /** Carving from a water seed adds exactly the island's cells to the land,
      and takes exactly those cells from the water. */
  lemma CarvedLand(g: Grid, seed: Cell, maxSize: int)
    requires Rect(g) && InBounds(g, seed) && !IsLand(g, seed)
    ensures var r := CreateIsland(g, seed, maxSize);
            && LandSet(r.grid) == LandSet(g) + Elems(r.island.cells)
            && |LandSet(r.grid)| == |LandSet(g)| + |r.island.cells|
            && WaterSet(r.grid) == WaterSet(g) - Elems(r.island.cells)
            && |WaterSet(r.grid)| == |WaterSet(g)| - |r.island.cells|
  {
    var r := CreateIsland(g, seed, maxSize);
    var cells := r.island.cells;
    assert forall k :: 0 <= k < |cells| ==> InBounds(g, cells[k]) && !IsLand(g, cells[k]);
    MarkedCells(g, r.grid, cells);
  }

  /** Marking water cells `cells` as land, and nothing else, moves exactly
      those cells from the water set to the land set. */
  lemma MarkedCells(g: Grid, g': Grid, cells: seq<Cell>)
    requires SameShape(g, g') && Distinct(cells)
    requires forall k :: 0 <= k < |cells| ==> InBounds(g, cells[k]) && !IsLand(g, cells[k])
    requires forall x :: InBounds(g, x) ==> (IsLand(g', x) <==> IsLand(g, x) || x in cells)
    ensures LandSet(g') == LandSet(g) + Elems(cells)
    ensures |LandSet(g')| == |LandSet(g)| + |cells|
    ensures WaterSet(g') == WaterSet(g) - Elems(cells)
    ensures |WaterSet(g')| == |WaterSet(g)| - |cells|
  {
    MarkedSets(g, g', cells);
    forall x | x in Elems(cells) ensures x in WaterSet(g) && x !in LandSet(g) {
      WaterSetMembers(g, x);
      LandSetMembers(g, x);
    }
    DistinctCard(cells);
    assert LandSet(g) !! Elems(cells);
    assert (WaterSet(g) - Elems(cells)) + Elems(cells) == WaterSet(g);
  }

  lemma MarkedSets(g: Grid, g': Grid, cells: seq<Cell>)
    requires SameShape(g, g')
    requires forall x :: InBounds(g, x) ==> (IsLand(g', x) <==> IsLand(g, x) || x in cells)
    requires forall k :: 0 <= k < |cells| ==> InBounds(g, cells[k])
    ensures LandSet(g') == LandSet(g) + Elems(cells)
    ensures WaterSet(g') == WaterSet(g) - Elems(cells)
  {
    forall x ensures x in LandSet(g') <==> x in LandSet(g) + Elems(cells) {
      LandSetMembers(g, x);
      LandSetMembers(g', x);
      SameShapeBounds(g, g', x);
    }
    forall x ensures x in WaterSet(g') <==> x in WaterSet(g) - Elems(cells) {
      WaterSetMembers(g, x);
      WaterSetMembers(g', x);
      SameShapeBounds(g, g', x);
    }
  }

  /** Every in-bounds neighbour of a member is a member. */
  ghost predicate Closed(g: Grid, s: set<Cell>) {
    forall x, d :: x in s && InBounds(g, Step(x, d)) ==> Step(x, d) in s
  }

  lemma {:induction false} RowReach(g: Grid, s: set<Cell>, r0: int, c0: int, c: int)
    requires Rect(g) && Closed(g, s)
    requires 0 <= r0 < |g| && 0 <= c0 < |g[0]| && 0 <= c < |g[0]|
    requires Cell(r0, c0) in s
    ensures Cell(r0, c) in s
    decreases if c < c0 then c0 - c else c - c0
  {
    if c < c0 {
      RowReach(g, s, r0, c0, c + 1);
      assert Step(Cell(r0, c + 1), Left) == Cell(r0, c);
    } else if c > c0 {
      RowReach(g, s, r0, c0, c - 1);
      assert Step(Cell(r0, c - 1), Right) == Cell(r0, c);
    }
  }

  lemma {:induction false} ColumnReach(g: Grid, s: set<Cell>, r0: int, c: int, r: int)
    requires Rect(g) && Closed(g, s)
    requires 0 <= r0 < |g| && 0 <= r < |g| && 0 <= c < |g[0]|
    requires Cell(r0, c) in s
    ensures Cell(r, c) in s
    decreases if r < r0 then r0 - r else r - r0
  {
    if r < r0 {
      ColumnReach(g, s, r0, c, r + 1);
      assert Step(Cell(r + 1, c), Up) == Cell(r, c);
    } else if r > r0 {
      ColumnReach(g, s, r0, c, r - 1);
      assert Step(Cell(r - 1, c), Down) == Cell(r, c);
    }
  }

  /** A set of cells closed under neighbours that holds one cell of a
      rectangular grid holds all of them: the grid is connected. */
  lemma ClosedIsEverything(g: Grid, s: set<Cell>, x0: Cell)
    requires Rect(g) && Closed(g, s)
    requires InBounds(g, x0) && x0 in s
    ensures AllCells(|g|, |g[0]|) <= s
  {
    forall x | x in AllCells(|g|, |g[0]|) ensures x in s {
      AllCellsMembers(g, x);
      RowReach(g, s, x0.i, x0.j, x.j);
      ColumnReach(g, s, x0.i, x.j, x.i);
    }
  }

  /** On an all-water map the fill stops only at its bound or when the map is
      full: an island has `min(Cap(maxSize), rows * cols)` cells, and the map
      has exactly that many land cells afterwards. */
  lemma OpenWaterIslandSize(rows: nat, cols: nat, seed: Cell, maxSize: int)
    requires rows > 0 && InBounds(AllWater(rows, cols), seed)
    ensures var r := CreateIsland(AllWater(rows, cols), seed, maxSize);
            && |r.island.cells| == (if Cap(maxSize) < rows * cols then Cap(maxSize) else rows * cols)
            && |LandSet(r.grid)| == |r.island.cells|
  {
    var g := AllWater(rows, cols);
    var cells := CreateIsland(g, seed, maxSize).island.cells;
    IslandWithinMap(rows, cols, seed, maxSize);
    if |cells| < Cap(maxSize) {
      IslandBelowBoundFillsMap(rows, cols, seed, maxSize);
    }
    LandSetEmpty(g);
    CarvedLand(g, seed, maxSize);
  }

  /** An island has no more cells than its map. */
  lemma IslandWithinMap(rows: nat, cols: nat, seed: Cell, maxSize: int)
    requires rows > 0 && InBounds(AllWater(rows, cols), seed)
    ensures |CreateIsland(AllWater(rows, cols), seed, maxSize).island.cells| <= rows * cols
  {
    var g := AllWater(rows, cols);
    var cells := CreateIsland(g, seed, maxSize).island.cells;
    var all := AllCells(rows, cols);
    AllCellsCard(rows, cols);
    DistinctCard(cells);
    assert Elems(cells) <= all by {
      forall x | x in Elems(cells) ensures x in all {
        AllCellsMembers(g, x);
      }
    }
    assert all == Elems(cells) + (all - Elems(cells));
  }

  /** An island that stops below its bound on an all-water map has covered it. */
  lemma IslandBelowBoundFillsMap(rows: nat, cols: nat, seed: Cell, maxSize: int)
    requires rows > 0 && InBounds(AllWater(rows, cols), seed)
    requires |CreateIsland(AllWater(rows, cols), seed, maxSize).island.cells| < Cap(maxSize)
    ensures |CreateIsland(AllWater(rows, cols), seed, maxSize).island.cells| >= rows * cols
  {
    var g := AllWater(rows, cols);
    var r := CreateIsland(g, seed, maxSize);
    SurroundedWaterIsClosed(g, r.grid, r.island.cells);
    ClosedCellsCoverMap(g, r.island.cells);
  }

  /** Distinct cells of a rectangular grid, closed under neighbours and
      holding an in-bounds cell, number at least as many as the grid's cells. */
  lemma ClosedCellsCoverMap(g: Grid, cells: seq<Cell>)
    requires Rect(g) && Distinct(cells) && |cells| > 0 && InBounds(g, cells[0])
    requires Closed(g, Elems(cells))
    ensures |cells| >= |g| * |g[0]|
  {
    ClosedIsEverything(g, Elems(cells), cells[0]);
    AllCellsCard(|g|, |g[0]|);
    DistinctCard(cells);
    var all := AllCells(|g|, |g[0]|);
    assert Elems(cells) == all + (Elems(cells) - all);
  }

  /** On a map that was all water, cells that are surrounded once they alone
      were marked form a set closed under neighbours. */
  lemma SurroundedWaterIsClosed(g: Grid, g': Grid, cells: seq<Cell>)
    requires SameShape(g, g')
    requires forall x :: InBounds(g, x) ==> !IsLand(g, x)
    requires forall x :: InBounds(g, x) ==> (IsLand(g', x) <==> IsLand(g, x) || x in cells)
    requires forall k :: 0 <= k < |cells| ==> Surrounded(g', cells[k])
    ensures Closed(g, Elems(cells))
  {
    forall x, d | x in Elems(cells) && InBounds(g, Step(x, d))
      ensures Step(x, d) in Elems(cells)
    {
      var k :| 0 <= k < |cells| && cells[k] == x;
      assert LandOrOff(g', Step(x, d));
      SameShapeBounds(g, g', Step(x, d));
    }
  }

  lemma LandSetEmpty(g: Grid)
    requires forall x :: InBounds(g, x) ==> !IsLand(g, x)
    ensures LandSet(g) == {}
  {
    forall x ensures x !in LandSet(g) {
      LandSetMembers(g, x);
    }
  }

  /** Island.test.js, "grid boundaries": seed (0,0) with bound 1 records just
      the seed and marks it as land. */
  lemma SeedOnlyWhenBoundIsOne()
    ensures var r := CreateIsland(AllWater(3, 3), Cell(0, 0), 1);
            && r.island.cells == [Cell(0, 0)]
            && IsLand(r.grid, Cell(0, 0))
            && |LandSet(r.grid)| == 1
  {
    OpenWaterIslandSize(3, 3, Cell(0, 0), 1);
  }

  /** Island.test.js, "respect maxSize": seed (1,1) with bound 2 claims its
      eastern neighbour first, and two cells are land. */
  lemma EastFirstWhenBoundIsTwo()
    ensures var r := CreateIsland(AllWater(3, 3), Cell(1, 1), 2);
            && r.island.cells == [Cell(1, 1), Cell(1, 2)]
            && |LandSet(r.grid)| == 2
  {
    var g := AllWater(3, 3);
    var s0 := Fill(SetLand(g, Cell(1, 1)), [Cell(1, 1)], [Cell(1, 1)]);
    var popped := Fill(s0.grid, s0.cells, []);
    assert Step(Cell(1, 1), GrowOrder[0]) == Cell(1, 2);
    assert Claimable(popped.grid, Cell(1, 2));
    assert Scan(popped, Cell(1, 1), 0, 2) == Claim(popped, Cell(1, 2));
    OpenWaterIslandSize(3, 3, Cell(1, 1), 2);
  }

  /** Island.test.js, "expanding correctly": seed (1,1) with bound 4 gives
      four cells and four land cells. */
  lemma FourCellsWhenBoundIsFour()
    ensures var r := CreateIsland(AllWater(3, 3), Cell(1, 1), 4);
            && |r.island.cells| == 4
            && |LandSet(r.grid)| == 4
  {
    OpenWaterIslandSize(3, 3, Cell(1, 1), 4);
  }

  /** One claim of the inner loop that leaves the island below its bound:
      the scan carries on with the next direction. */
  lemma ScanClaimsAndGoesOn(s: Fill, c: Cell, k: nat, maxSize: int)
    requires k < |GrowOrder| && Claimable(s.grid, Step(c, GrowOrder[k]))
    requires |s.cells| + 1 < maxSize
    ensures Scan(s, c, k, maxSize) == Scan(Claim(s, Step(c, GrowOrder[k])), c, k + 1, maxSize)
  {
  }

  /** A claim appends `n` to the recorded cells and marks it on the grid. */
  lemma ClaimAppends(s: Fill, n: Cell)
    requires Claimable(s.grid, n)
    ensures Claim(s, n).cells == s.cells + [n] && Claim(s, n).grid == SetLand(s.grid, n)
  {
  }

  /** Claiming `n` leaves every other water cell water. */
  lemma OtherWaterStays(g: Grid, n: Cell, x: Cell)
    requires InBounds(g, n) && Claimable(g, x) && x != n
    ensures Claimable(SetLand(g, n), x)
  {
  }

  /** The last two tries of the scan with bound 5, from three cells: west
      and then north are claimed when both are water. */
  lemma ScanClaimsWestThenNorth(s: Fill, c: Cell)
    requires |s.cells| == 3
    requires Claimable(s.grid, Step(c, Left)) && Claimable(s.grid, Step(c, Up))
    ensures Scan(s, c, 2, 5).cells == s.cells + [Step(c, Left), Step(c, Up)]
  {
    var w, n := Step(c, Left), Step(c, Up);
    assert GrowOrder[2] == Left && GrowOrder[3] == Up;
    ScanClaimsAndGoesOn(s, c, 2, 5);
    ClaimAppends(s, w);
    var s3 := Claim(s, w);
    OtherWaterStays(s.grid, w, n);
    ClaimAppends(s3, n);
    assert Scan(s3, c, 3, 5) == Claim(s3, n);
  }

  /** The first two tries of the scan with bound 5, from the seed alone:
      east and then south are claimed, and west and north stay water. */
  lemma ScanClaimsEastThenSouth(p: Fill, c: Cell)
    requires |p.cells| == 1
    requires Claimable(p.grid, Step(c, Right)) && Claimable(p.grid, Step(c, Down))
    requires Claimable(p.grid, Step(c, Left)) && Claimable(p.grid, Step(c, Up))
    ensures Claimable(Claim(p, Step(c, Right)).grid, Step(c, Down))
    ensures var s2 := Claim(Claim(p, Step(c, Right)), Step(c, Down));
            && Scan(p, c, 0, 5) == Scan(s2, c, 2, 5)
            && s2.cells == p.cells + [Step(c, Right), Step(c, Down)]
            && Claimable(s2.grid, Step(c, Left)) && Claimable(s2.grid, Step(c, Up))
  {
    var e, s, w, n := Step(c, Right), Step(c, Down), Step(c, Left), Step(c, Up);
    assert GrowOrder[0] == Right && GrowOrder[1] == Down;
    ScanClaimsAndGoesOn(p, c, 0, 5);
    ClaimAppends(p, e);
    var s1 := Claim(p, e);
    OtherWaterStays(p.grid, e, s);
    OtherWaterStays(p.grid, e, w);
    OtherWaterStays(p.grid, e, n);
    ScanClaimsAndGoesOn(s1, c, 1, 5);
    ClaimAppends(s1, s);
    OtherWaterStays(s1.grid, s, w);
    OtherWaterStays(s1.grid, s, n);
  }

  /** A seed whose four neighbours are all water, scanned with bound 5,
      claims them in the order east, south, west, north. */
  lemma ScanClaimsAllFour(p: Fill, c: Cell)
    requires |p.cells| == 1
    requires forall k :: 0 <= k < |GrowOrder| ==> Claimable(p.grid, Step(c, GrowOrder[k]))
    ensures Scan(p, c, 0, 5).cells
              == p.cells + [Step(c, Right), Step(c, Down), Step(c, Left), Step(c, Up)]
  {
    assert GrowOrder[0] == Right && GrowOrder[1] == Down && GrowOrder[2] == Left && GrowOrder[3] == Up;
    ScanClaimsEastThenSouth(p, c);
    var s2 := Claim(Claim(p, Step(c, Right)), Step(c, Down));
    ScanClaimsWestThenNorth(s2, c);
  }

  /** An island seeded where all four neighbours are water, with bound 5,
      is the seed and those neighbours, east, south, west, north. */
  lemma CrossWhenBoundIsFive(g: Grid, c: Cell)
    requires Rect(g) && InBounds(g, c)
    requires forall k :: 0 <= k < |GrowOrder| ==> Claimable(SetLand(g, c), Step(c, GrowOrder[k]))
    ensures CreateIsland(g, c, 5).island.cells
              == [c, Step(c, Right), Step(c, Down), Step(c, Left), Step(c, Up)]
  {
    var s0 := Fill(SetLand(g, c), [c], [c]);
    var popped := Fill(s0.grid, s0.cells, []);
    ScanClaimsAllFour(popped, c);
    var s4 := Scan(popped, c, 0, 5);
    assert |s4.cells| == 5;
    assert s0.queue[1..] == [];
    assert Grow(s0, 5) == Grow(s4, 5);
  }

  /** On the open 3 x 3 map, every neighbour of the centre is water once the
      centre is marked. */
  lemma CentreNeighboursAreWater()
    ensures forall k :: 0 <= k < |GrowOrder| ==>
              Claimable(SetLand(AllWater(3, 3), Cell(1, 1)), Step(Cell(1, 1), GrowOrder[k]))
  {
    var g := AllWater(3, 3);
    var c := Cell(1, 1);
    forall k | 0 <= k < |GrowOrder| ensures Claimable(SetLand(g, c), Step(c, GrowOrder[k])) {
      var x := Step(c, GrowOrder[k]);
      assert Claimable(g, x);
      OtherWaterStays(g, c, x);
    }
  }

  /** A scan skips a neighbour that cannot be claimed. */
  lemma ScanSkips(s: Fill, c: Cell, k: nat, maxSize: int)
    requires k < |GrowOrder| && !Claimable(s.grid, Step(c, GrowOrder[k]))
    ensures Scan(s, c, k, maxSize) == Scan(s, c, k + 1, maxSize)
  {
  }

  /** The first scan from a seed in the top-left corner of a map, with
      bound 5: east and south are claimed, west and north are off the map. */
  lemma CornerFirstScan(p: Fill, c: Cell)
    requires |p.cells| == 1 && p.queue == []
    requires Claimable(p.grid, Step(c, Right)) && Claimable(p.grid, Step(c, Down))
    requires !InBounds(p.grid, Step(c, Left)) && !InBounds(p.grid, Step(c, Up))
    requires Claimable(p.grid, Cell(c.i, c.j + 2)) && Claimable(p.grid, Cell(c.i + 1, c.j + 1))
    ensures Claimable(Claim(p, Step(c, Right)).grid, Step(c, Down))
    ensures var s2 := Claim(Claim(p, Step(c, Right)), Step(c, Down));
            && Scan(p, c, 0, 5) == s2
            && s2.cells == p.cells + [Step(c, Right), Step(c, Down)]
            && s2.queue == [Step(c, Right), Step(c, Down)]
            && Claimable(s2.grid, Cell(c.i, c.j + 2)) && Claimable(s2.grid, Cell(c.i + 1, c.j + 1))
  {
    var e, s := Step(c, Right), Step(c, Down);
    var ee, es := Cell(c.i, c.j + 2), Cell(c.i + 1, c.j + 1);
    assert GrowOrder[0] == Right && GrowOrder[1] == Down && GrowOrder[2] == Left && GrowOrder[3] == Up;
    ScanClaimsAndGoesOn(p, c, 0, 5);
    ClaimAppends(p, e);
    var s1 := Claim(p, e);
    OtherWaterStays(p.grid, e, s);
    OtherWaterStays(p.grid, e, ee);
    OtherWaterStays(p.grid, e, es);
    ScanClaimsAndGoesOn(s1, c, 1, 5);
    ClaimAppends(s1, s);
    var s2 := Claim(s1, s);
    OtherWaterStays(s1.grid, s, ee);
    OtherWaterStays(s1.grid, s, es);
    ScanSkips(s2, c, 2, 5);
    ScanSkips(s2, c, 3, 5);
  }

  /** The second scan, from the seed's east neighbour `c`, with three cells
      recorded: east and south are claimed, and the bound 5 is reached. */
  lemma CornerSecondScan(p: Fill, c: Cell)
    requires |p.cells| == 3
    requires Claimable(p.grid, Step(c, Right)) && Claimable(p.grid, Step(c, Down))
    ensures Claimable(Claim(p, Step(c, Right)).grid, Step(c, Down))
    ensures var s4 := Claim(Claim(p, Step(c, Right)), Step(c, Down));
            && Scan(p, c, 0, 5) == s4
            && s4.cells == p.cells + [Step(c, Right), Step(c, Down)]
  {
    var e, s := Step(c, Right), Step(c, Down);
    assert GrowOrder[0] == Right && GrowOrder[1] == Down;
    ScanClaimsAndGoesOn(p, c, 0, 5);
    ClaimAppends(p, e);
    var s1 := Claim(p, e);
    OtherWaterStays(p.grid, e, s);
    ClaimAppends(s1, s);
    assert Scan(s1, c, 1, 5) == Claim(s1, s);
  }

  /** An island seeded in a top-left corner with bound 5 grows breadth
      first: the seed's east and south neighbours, then the east neighbour's
      own east and south neighbours. */
  lemma CornerWhenBoundIsFive(g: Grid, c: Cell)
    requires Rect(g) && InBounds(g, c)
    requires var g1 := SetLand(g, c);
             && Claimable(g1, Step(c, Right)) && Claimable(g1, Step(c, Down))
             && !InBounds(g1, Step(c, Left)) && !InBounds(g1, Step(c, Up))
             && Claimable(g1, Cell(c.i, c.j + 2)) && Claimable(g1, Cell(c.i + 1, c.j + 1))
    ensures CreateIsland(g, c, 5).island.cells
              == [c, Step(c, Right), Step(c, Down), Cell(c.i, c.j + 2), Cell(c.i + 1, c.j + 1)]
  {
    var s0 := Fill(SetLand(g, c), [c], [c]);
    var popped := Fill(s0.grid, s0.cells, []);
    assert s0.queue[1..] == [];
    CornerFirstScan(popped, c);
    var s2 := Scan(popped, c, 0, 5);
    assert Grow(s0, 5) == Grow(s2, 5);
    var e := Step(c, Right);
    assert Step(e, Right) == Cell(c.i, c.j + 2) && Step(e, Down) == Cell(c.i + 1, c.j + 1);
    var popped2 := Fill(s2.grid, s2.cells, s2.queue[1..]);
    CornerSecondScan(popped2, e);
    var s4 := Scan(popped2, e, 0, 5);
    assert Grow(s2, 5) == Grow(s4, 5);
    assert |s4.cells| == 5;
  }

  /** On the open 3 x 3 map, the cells around the corner (0, 0) are water,
      or off the map, once the corner is marked. */
  lemma CornerSurroundings()
    ensures var g1 := SetLand(AllWater(3, 3), Cell(0, 0));
            && Claimable(g1, Cell(0, 1)) && Claimable(g1, Cell(1, 0))
            && !InBounds(g1, Cell(0, -1)) && !InBounds(g1, Cell(-1, 0))
            && Claimable(g1, Cell(0, 2)) && Claimable(g1, Cell(1, 1))
  {
    var g := AllWater(3, 3);
    var c := Cell(0, 0);
    assert Claimable(g, Cell(0, 1)) && Claimable(g, Cell(1, 0));
    assert Claimable(g, Cell(0, 2)) && Claimable(g, Cell(1, 1));
    OtherWaterStays(g, c, Cell(0, 1));
    OtherWaterStays(g, c, Cell(1, 0));
    OtherWaterStays(g, c, Cell(0, 2));
    OtherWaterStays(g, c, Cell(1, 1));
  }

  /** Breadth first, not depth first: with bound 5, seed (0,0) gives
      `[(0,0), (0,1), (1,0), (0,2), (1,1)]`; a last-in-first-out fill would
      expand (1,0) second and give `[(0,0), (0,1), (1,0), (1,1), (2,0)]`. */
  lemma BreadthFirstWhenBoundIsFive()
    ensures CreateIsland(AllWater(3, 3), Cell(0, 0), 5).island.cells
              == [Cell(0, 0), Cell(0, 1), Cell(1, 0), Cell(0, 2), Cell(1, 1)]
  {
    CornerSurroundings();
    CornerWhenBoundIsFive(AllWater(3, 3), Cell(0, 0));
  }

  /** With bound 5 the seed's four neighbours are all claimed, in the order
      east, south, west, north. */
  lemma NeighbourOrderWhenBoundIsFive()
    ensures CreateIsland(AllWater(3, 3), Cell(1, 1), 5).island.cells
              == [Cell(1, 1), Cell(1, 2), Cell(2, 1), Cell(1, 0), Cell(0, 1)]
  {
    CentreNeighboursAreWater();
    CrossWhenBoundIsFive(AllWater(3, 3), Cell(1, 1));
  }

  /** Island.test.js, "boundary conditions": seed (0,0) with bound 9 covers
      the whole 3 x 3 map. */
  lemma WholeMapWhenBoundIsNine()
    ensures var r := CreateIsland(AllWater(3, 3), Cell(0, 0), 9);
            && |r.island.cells| == 9
            && |LandSet(r.grid)| == 9
            && forall x :: InBounds(r.grid, x) ==> IsLand(r.grid, x)
  {
    var g := AllWater(3, 3);
    var r := CreateIsland(g, Cell(0, 0), 9);
    OpenWaterIslandSize(3, 3, Cell(0, 0), 9);
    AllCellsCard(3, 3);
    forall x | InBounds(r.grid, x) ensures IsLand(r.grid, x) {
      LandSetMembers(r.grid, x);
      AllCellsMembers(r.grid, x);
      assert LandSet(r.grid) <= AllCells(3, 3) by {
        forall y | y in LandSet(r.grid) ensures y in AllCells(3, 3) {
          LandSetMembers(r.grid, y);
          AllCellsMembers(r.grid, y);
        }
      }
      assert LandSet(r.grid) == AllCells(3, 3) by {
        assert AllCells(3, 3) == LandSet(r.grid) + (AllCells(3, 3) - LandSet(r.grid));
      }
    }
  }

  /** Island.test.js, "invalid starting point", expects no cells when the seed
      is already land; the constructor marks and records the seed regardless,
      then claims the eastern neighbour, so the island has two cells. */
  lemma LandSeedStillRecorded()
    ensures var g := AllWater(3, 3)[0 := [true, false, false]];
            var r := CreateIsland(g, Cell(0, 0), 2);
            r.island.cells == [Cell(0, 0), Cell(0, 1)]
  {
    var g := AllWater(3, 3)[0 := [true, false, false]];
    var s0 := Fill(SetLand(g, Cell(0, 0)), [Cell(0, 0)], [Cell(0, 0)]);
    var popped := Fill(s0.grid, s0.cells, []);
    assert Step(Cell(0, 0), GrowOrder[0]) == Cell(0, 1);
    assert Claimable(popped.grid, Cell(0, 1));
    assert Scan(popped, Cell(0, 0), 0, 2) == Claim(popped, Cell(0, 1));
  }
}

=== FILE: player.dfy ===
/** The `Player` class: a position (absent until placed) and whether the boat
    has been collected, with the one-step move rule. */
module Players {
  import opened Wrappers
  import opened Grids

  datatype Player = Player(position: Option<Cell>, hasBoat: bool)

  /** The four keys the move rule understands. */
  const ArrowKeys: set<string> := {"ArrowUp", "ArrowDown", "ArrowLeft", "ArrowRight"}

  /** `new Player()`: not yet on the map, and without the boat. */
  function NewPlayer(): (p: Player)
    ensures p.position == None && !p.hasBoat
  {
    Player(None, false)
  }

  /** `placeRandomly(island)`: stand on the island cell at index `pick`, the
      value of `Math.floor(Math.random() * island.cells.length)`. An empty
      island has no such index. */
  function PlaceRandomly(p: Player, cells: seq<Cell>, pick: nat): (r: Player)
    requires pick < |cells|
    ensures r.position.Some? && r.position.value in cells
    ensures r.hasBoat == p.hasBoat
  {
    Player(Some(cells[pick]), p.hasBoat)
  }

  /** The direction a key names; any other key names none. */
  function KeyDirection(key: string): (d: Option<Direction>)
    ensures d.Some? <==> key in ArrowKeys
    ensures d == Some(Up) <==> key == "ArrowUp"
    ensures d == Some(Down) <==> key == "ArrowDown"
    ensures d == Some(Left) <==> key == "ArrowLeft"
    ensures d == Some(Right) <==> key == "ArrowRight"
  {
    if key == "ArrowUp" then Some(Up)
    else if key == "ArrowDown" then Some(Down)
    else if key == "ArrowLeft" then Some(Left)
    else if key == "ArrowRight" then Some(Right)
    else None
  }

  /** The candidate cell `{ newI, newJ }` after the `switch` on the key. */
  function Target(c: Cell, key: string): Cell {
    match KeyDirection(key)
    case Some(d) => Step(c, d)
    case None => c
  }

  /** The bounds test of `move`: the row is one of the grid's, and the column
      is below `grid[0].length`. The cell must also exist in its own row, as
      a missing entry is neither `'1'` nor `'0'`. */
  predicate OnMap(g: Grid, t: Cell) {
    InBounds(g, t) && t.j < |g[0]|
  }

  /** The legality test of a move: on the map, and land, or water with the boat. */
  predicate MayEnter(g: Grid, t: Cell, hasBoat: bool) {
    OnMap(g, t) && (IsLand(g, t) || hasBoat)
  }

  /** Each arrow key steps one cell along its own axis: up and down change
      the row, left and right the column. */
  lemma ArrowSteps(c: Cell)
    ensures Target(c, "ArrowUp") == Cell(c.i - 1, c.j)
    ensures Target(c, "ArrowDown") == Cell(c.i + 1, c.j)
    ensures Target(c, "ArrowLeft") == Cell(c.i, c.j - 1)
    ensures Target(c, "ArrowRight") == Cell(c.i, c.j + 1)
  {
  }

  /** The column bound is the first row's width: on the map `[[land],
      [land, land]]` the player at (1, 0) cannot step right, although the
      second row has a cell there. */
  lemma FirstRowWidthBoundsColumns()
    ensures var p := Player(Some(Cell(1, 0)), false);
            Move(p, "ArrowRight", [[true], [true, true]]) == p
  {
    var g := [[true], [true, true]];
    assert Target(Cell(1, 0), "ArrowRight") == Cell(1, 1);
    assert !OnMap(g, Cell(1, 1));
  }

  /** `move(direction, grid)`: go to the target cell when it may be entered,
      otherwise stay. The source reads the position first, so the player must
      have been placed. */
  function Move(p: Player, key: string, g: Grid): (r: Player)
    requires p.position.Some?
    ensures r.hasBoat == p.hasBoat
    ensures r.position.Some?
    ensures r.position != p.position <==>
              key in ArrowKeys && MayEnter(g, Step(p.position.value, KeyDirection(key).value), p.hasBoat)
    ensures r.position != p.position ==> r.position == Some(Target(p.position.value, key))
    ensures r.position != p.position ==> Adjacent(p.position.value, r.position.value)
  {
    var t := Target(p.position.value, key);
    if MayEnter(g, t, p.hasBoat) then Player(Some(t), p.hasBoat) else p
  }

  /** A move is a single orthogonal unit step or none at all. */
  lemma MoveIsUnitStep(p: Player, key: string, g: Grid)
    requires p.position.Some?
    ensures var q := Move(p, key, g).position.value;
            var c := p.position.value;
            || q == c
            || (q.i == c.i && (q.j == c.j + 1 || q.j == c.j - 1))
            || (q.j == c.j && (q.i == c.i + 1 || q.i == c.i - 1))
  {
  }

  /** A key other than the four arrows never moves the player. */
  lemma OtherKeysStay(p: Player, key: string, g: Grid)
    requires p.position.Some? && key !in ArrowKeys
    ensures Move(p, key, g) == p
  {
  }

  /** Without the boat, a player on land stays on land. */
  lemma NoBoatStaysOnLand(p: Player, key: string, g: Grid)
    requires p.position.Some? && !p.hasBoat
    requires InBounds(g, p.position.value) && IsLand(g, p.position.value)
    ensures var q := Move(p, key, g).position.value;
            InBounds(g, q) && IsLand(g, q)
  {
  }

  /** A player on the map stays on the map. */
  lemma MoveStaysInBounds(p: Player, key: string, g: Grid)
    requires p.position.Some? && InBounds(g, p.position.value)
    ensures InBounds(g, Move(p, key, g).position.value)
  {
  }

  /** With the boat, an arrow key towards an in-bounds water cell does move
      the player; without it, the same move is refused. */
  lemma BoatOpensWater(p: Player, key: string, g: Grid)
    requires p.position.Some? && key in ArrowKeys
    requires var t := Target(p.position.value, key); OnMap(g, t) && !IsLand(g, t)
    ensures p.hasBoat ==> Move(p, key, g).position == Some(Target(p.position.value, key))
    ensures !p.hasBoat ==> Move(p, key, g) == p
  {
  }
}

=== FILE: seqs.dfy ===
/** Sequence helpers shared by the island fill and the game engine. */
module Seqs {

  /** No element occurs twice. */
  predicate Distinct<T(==)>(s: seq<T>) {
    forall a, b :: 0 <= a < b < |s| ==> s[a] != s[b]
  }

  /** The set of elements of a sequence. */
  function Elems<T>(s: seq<T>): set<T> {
    set x | x in s
  }

  /** The elements of `s` that satisfy `keep`, in their original order
      (the source's `Array.prototype.filter`). */
  function Filter<T(==)>(s: seq<T>, keep: T -> bool): (r: seq<T>)
    ensures |r| <= |s|
    ensures forall k :: 0 <= k < |r| ==> r[k] in s && keep(r[k])
    ensures forall k :: 0 <= k < |s| && keep(s[k]) ==> s[k] in r
    decreases |s|
  {
    if |s| == 0 then []
    else if keep(s[0]) then [s[0]] + Filter(s[1..], keep)
    else Filter(s[1..], keep)
  }

  /** Filtering a concatenation filters each part and keeps them in order. */
  lemma {:induction false} FilterAppend<T>(a: seq<T>, b: seq<T>, keep: T -> bool)
    ensures Filter(a + b, keep) == Filter(a, keep) + Filter(b, keep)
    decreases |a|
  {
    if |a| == 0 {
      assert a + b == b;
    } else {
      assert (a + b)[1..] == a[1..] + b;
      FilterAppend(a[1..], b, keep);
    }
  }

  /** When every element is kept, filtering changes nothing. */
  lemma {:induction false} FilterKeepsAll<T>(s: seq<T>, keep: T -> bool)
    requires forall k :: 0 <= k < |s| ==> keep(s[k])
    ensures Filter(s, keep) == s
    decreases |s|
  {
    if |s| > 0 {
      FilterKeepsAll(s[1..], keep);
      assert [s[0]] + s[1..] == s;
    }
  }

  /** When no element is kept, filtering leaves nothing. */
  lemma {:induction false} FilterDropsAll<T>(s: seq<T>, keep: T -> bool)
    requires forall k :: 0 <= k < |s| ==> !keep(s[k])
    ensures Filter(s, keep) == []
    decreases |s|
  {
    if |s| > 0 {
      FilterDropsAll(s[1..], keep);
    }
  }

  /** Filtering drops exactly the rejected elements: the kept and the rejected
      parts together have the length of the input. */
  lemma {:induction false} FilterSplitsLength<T>(s: seq<T>, keep: T -> bool)
    ensures |Filter(s, keep)| + |Filter(s, x => !keep(x))| == |s|
    decreases |s|
  {
    if |s| > 0 {
      FilterSplitsLength(s[1..], keep);
    }
  }

  /** Filtering out an element that is there shortens the sequence. */
  lemma FilterShrinks<T>(s: seq<T>, keep: T -> bool, k: int)
    requires 0 <= k < |s| && !keep(s[k])
    ensures |Filter(s, keep)| < |s|
  {
    FilterSplitsLength(s, keep);
    var drop := x => !keep(x);
    assert drop(s[k]);
    assert s[k] in Filter(s, drop);
  }

  /** A sequence without repetitions has as many elements as its set. */
  lemma {:induction false} DistinctCard<T>(s: seq<T>)
    requires Distinct(s)
    ensures |Elems(s)| == |s|
    decreases |s|
  {
    if |s| > 0 {
      var t := s[..|s| - 1];
      var last := s[|s| - 1];
      assert Distinct(t);
      DistinctCard(t);
      assert last !in Elems(t);
      assert Elems(s) == Elems(t) + {last} by {
        assert s == t + [last];
      }
    }
  }
}

=== FILE: wrappers.dfy ===
/** The optional value used for "not placed yet" and for `Array.prototype.find`. */
module Wrappers {

  datatype Option<T> = None | Some(value: T)
}
